=== FILE: README.md ===
# Research-paper ingestion, modelled in Dafny

This project models the ingestion side of a research-paper search tool.
The server's `POST /api/search` handler takes a user's query and:

1. asks a chat model twice for research topics;
2. parses the topic lines out of the second reply;
3. looks up each topic's papers on arXiv;
4. downloads each paper's PDF text and cuts it into numbered chunks of at most 20000 characters;
5. stores one record per chunk in the `papers` table, 500 records per insert.

A stand-alone Python script harvests papers for a fixed topic list. It builds the same kind of paper description from the arXiv feed, with some differences in detail.

Every outside service is a function-valued parameter:

- the chat completion;
- the arXiv request plus XML conversion;
- date formatting;
- the PDF download plus text extraction;
- the database insert.

A parameter returns `None` (or `false`) where the real call throws. The rest of the core is modelled as the code does it, within the limits listed under "## Left out". That includes JavaScript's `trim` whitespace set, `lastIndexOf` with a position, first-only `String.replace`, Python's replace-all `str.replace`, and `Number.prototype.toString` for the chunk numbers.

Modules, one per file:

- `Wrappers`: `Option`, `Result`, the single/list/missing shape `Multi`, and the loops `FlatMap` and `ConcatMap`.
- `JsText`: the string primitives.
- `Decimal`: decimal numerals.
- `Chunker`: `splitTextIntoChunks`.
- `Topics`: parsing and cleaning the topic lines.
- `Batching`: `uploadToSupabaseInBatches`.
- `Arxiv`: `fetchArxivPapers`.
- `ArxivPy`: the Python script.
- `Llm`: the two chat calls.
- `Ingest`: record assembly and the handler.
- `Compare`: what the server and the script make of the same entry.

The second prompt asks for topics "only go to 3", but the handler does not cap the topic count, and neither does this model (`Topics.ParseJoinedTopics` holds for any number of lines).

## Model

| member | source | states |
|---|---|---|
| Chunker.SplitTextIntoChunks | backend/server.js:30-50 | The loop computes the recursive chunking. It gives no chunks exactly for empty text. Chunks are numbered 1, 2, …, each has at most `maxLength` characters and no NUL, and the contents joined in order give the text without its NULs. |
| Chunker.ChunksProperties | backend/server.js:30-50 | For the recursive definition of the chunk list: no chunks exactly for empty text, numbered from 1, each fitting the window without NULs. |
| Chunker.ChunksSpellText | backend/server.js:30-50 | The chunk list of the whole text, joined in order, is the text without its NULs. |
| Chunker.CutAt | backend/server.js:35-42 | Each cut lies strictly after the cursor and at most `maxLength` past it, so the loop always advances. |
| Chunker.CutAtSpaces | backend/server.js:37-41 | A window reaching the end of the text is not pulled back. A pulled-back cut sits on a space. No space lies between the cut and the window end. A cut left at the window end, unless the window end itself is a space, means no space after the cursor within the window. |
| Chunker.InteriorCuts | backend/server.js:37-46 | Every cut before the end of the text is the window end or a space after the previous cut. When it is a space, the next chunk begins with that space, so nothing is dropped at a cut. |
| Chunker.ChunksConcat | backend/server.js:44-46 | The chunks from any cursor on spell the rest of the text without NULs. |
| Chunker.ChunkOrders | backend/server.js:45-47 | Chunks from a cursor are numbered consecutively from the starting order. |
| Chunker.ChunksBounded | backend/server.js:35-45 | Every chunk fits the window and holds no NUL. |
| Chunker.ChunkCountBound | backend/server.js:34-48 | There are never more chunks than characters left. |
| Chunker.ShortTextIsOneChunk | backend/server.js:34-37 | Text no longer than the window is empty (no chunk) or exactly one chunk, numbered 1, holding the text without NULs. |
| Chunker.RechunkIsIdentity | backend/server.js:30-50 | A NUL-free chunk-sized text chunks to itself. |
| JsText.Trim | backend/server.js:174 | The trimmed string is no longer than the input and neither starts nor ends with whitespace. |
| JsText.RemoveNul | backend/server.js:44 | The result holds no NUL, is no longer than the input, and equals the input when it had no NUL. |
| JsText.Split | backend/server.js:173 | `split(sep)` gives at least one piece and no piece contains the separator. |
| JsText.ReplaceFirst | backend/server.js:83 | A replacement as long as the pattern keeps the length, and a string without the pattern is unchanged. |
| JsText.ReplaceFirstAtFirst | backend/server.js:83 | With the pattern's first occurrence at `i`, the result is the text before `i`, then the replacement, then the text after that occurrence, untouched. |
| JsText.ReplaceAll | frontend/main.py:66 | A replacement as long as the pattern keeps the length, and a string without the pattern is unchanged. |
| JsText.ReplaceAllAtFirst | frontend/main.py:66 | With the pattern's first occurrence at `i`, the result is the text before `i`, then the replacement, then the rest after that occurrence with every occurrence replaced in turn. |
| JsText.LastIndexOf | backend/server.js:38 | `lastIndexOf(c, position)` finds an occurrence at or before the clamped position, with no occurrence between it and the position. |
| JsText.RemoveNulCounts | backend/server.js:44 | Removing NULs keeps every other character, with its count. |
| JsText.RemoveNulAppend | backend/server.js:44 | NUL removal distributes over concatenation. |
| JsText.TrimIsPadding | backend/server.js:174 | `trim` removes exactly the leading and trailing whitespace runs. |
| JsText.TrimEmptyIff | backend/server.js:143 | A string trims to empty exactly when all of it is whitespace. |
| JsText.TrimIdentityIff | backend/server.js:174 | `trim` leaves a string unchanged exactly when it neither starts nor ends with whitespace. |
| JsText.TrimIdempotent | backend/server.js:185 | Trimming twice is trimming once. |
| JsText.JoinSplit | backend/server.js:173 | Joining the pieces of `split(sep)` gives back the string. |
| JsText.SplitJoin | backend/server.js:173 | Splitting joined separator-free pieces gives back the pieces. |
| JsText.SplitAppend | backend/server.js:173 | Splitting at a separator splits the result in two. |
| JsText.ReplaceFirstIsReplaceAllWhenAtMostOnce | backend/server.js:83 | First-only and replace-all agree when the pattern occurs at most once. |
| JsText.ReplaceAllLeavesNoOccurrence | frontend/main.py:66 | A replace-all with a replacement sharing no character with the pattern leaves no occurrence. |
| Topics.KeepTopicLines | backend/server.js:175 | The filter keeps only topic lines, and every topic line of the input is kept. Order is stated by `Topics.ParseTopicsAppend` and `Topics.ParseTopicsLine`. |
| Topics.ParsedTopicsWellFormed | backend/server.js:172-175 | Every parsed topic is non-empty, trimmed, a single line, and does not start with `-`. |
| Topics.ParseTopicsAppend | backend/server.js:172-175 | Line order is kept: the topics of two blocks joined by a line break are the first block's followed by the second's. |
| Topics.ParseTopicsLine | backend/server.js:174-175 | A single line yields its trimmed text if that is a topic line, else nothing. |
| Topics.ParseJoinedTopics | backend/server.js:172-175 | Parsing undoes joining well-formed topics with line breaks, for any number of topics. |
| Topics.NumberingLength | backend/server.js:185 | A non-zero prefix length is exactly digits, a dot and all the whitespace after it. |
| Topics.NumberingLengthZeroIff | backend/server.js:185 | The pattern `^\d+\.\s*` fails to match exactly when the line does not start with digits and a dot. |
| Topics.CleanTopic | backend/server.js:185 | The cleaned topic is trimmed and no longer than the line. |
| Topics.CleanNumberedTopic | backend/server.js:185 | `<digits>.<spaces>text` cleans to the trimmed text. |
| Topics.CleanUnnumbered | backend/server.js:185 | A line without enumeration is only trimmed. |
| Topics.CleanRemovesOnlyOneNumber | backend/server.js:185 | Only one enumeration is removed: `1. 2. x` cleans to `2. x`, which still starts with one. |
| Topics.CleanBareNumberIsEmpty | backend/server.js:185 | A line that is only a number cleans to the empty topic. |
| Decimal.NatToDecimal | backend/server.js:211 | `toString()` of an order is a digit string with no leading zero. |
| Decimal.DecimalRoundTrip | backend/server.js:211 | Reading the numeral back gives the number. |
| Decimal.DecimalInjective | backend/server.js:211 | Distinct orders get distinct numerals. |
| Batching.UploadInBatches | backend/server.js:115-133 | Requires a batch size of at least 1 and states nothing itself. The upload's outcome is given by `Batching.UploadFailsIff`, `Batching.UploadFailure`, `Batching.UploadSucceeds` and `Batching.UploadStopsAtFailure`. |
| Batching.BatchAt | backend/server.js:119 | `slice(i, i + batchSize)` ends at `i + batchSize` or at the end of the list. |
| Batching.OffsetsAreMultiples | backend/server.js:118 | The `k`-th offset the loop visits is `i + k·batchSize`. |
| Batching.BatchesConcat | backend/server.js:118-119 | The batches joined in order are the records. |
| Batching.BatchesShape | backend/server.js:118-119 | There is one batch per offset, each non-empty and at most `batchSize` long. |
| Batching.UploadAttempts | backend/server.js:118-125 | Batches are sent in offset order, each only after all earlier ones were accepted. Without a rejection, every offset is sent. |
| Batching.UploadSucceeds | backend/server.js:118-128 | Without a rejection, the database holds every record. |
| Batching.UploadStopsAtFailure | backend/server.js:121-125 | A rejected batch is the last one sent, and the database holds exactly the records before its offset. |
| Batching.UploadFailsIff | backend/server.js:118-133 | The upload fails exactly when some batch is rejected. |
| Batching.UploadFailure | backend/server.js:118-133 | On failure, the rejected `n`-th batch starts at `(n-1)·batchSize`, and only the records before it are stored. |
| Arxiv.FetchArxivPapers | backend/server.js:58-89 | Partial on its own: every paper returned has a trimmed title and link. When the lookup fails is stated by `Arxiv.FetchFailsIff`, and the papers by `Arxiv.NormalizeEntries`. |
| Arxiv.NormalizeEntry | backend/server.js:76-84 | Partial on its own: a kept entry's title, link and PDF address are trimmed. When an entry is kept, and each field against the raw element text, is stated by `Compare.EntriesAgree`. |
| Arxiv.PdfUrl | backend/server.js:83 | Partial on its own: the address is no longer than the id. Its contents are stated by `Arxiv.PdfUrlIsTrimmedIdIff`, `Arxiv.PdfUrlOfTrimmedId` and `JsText.ReplaceFirstAtFirst`. |
| Arxiv.AuthorNames | backend/server.js:79 | The names map in order, trimmed; they fail exactly when an author has no name. |
| Arxiv.SingleAuthorIsList | backend/server.js:78-80 | A single author gives the same names, or the same failure, as a list holding only that author. |
| Arxiv.SingleEntryIsList | backend/server.js:71-74 | A feed with one entry gives the same papers, or the same failure, as a feed listing only that entry. |
| Arxiv.PdfUrlIsTrimmedIdIff | backend/server.js:81-83 | The PDF address (first `abs` replaced, then trimmed) equals the trimmed id exactly when `abs` does not occur in the id. |
| Arxiv.PdfUrlIsLinkIff | backend/server.js:81-83 | A paper's `pdf_url` equals its `link` exactly when its id holds no `abs`. |
| Arxiv.PdfUrlOfTrimmedId | backend/server.js:81-83 | Replacing before trimming gives the same PDF address as trimming the id first and replacing in the trimmed id. |
| Arxiv.QueryForInjective | backend/server.js:61-67 | Distinct topics send distinct queries: the search term is `all:` followed by the topic verbatim. |
| Arxiv.FetchFailsIff | backend/server.js:58-89 | The lookup fails exactly when the request or conversion fails, there is no feed, or any one entry cannot be normalised, which loses the whole topic. |
| Arxiv.NormalizeEntries | backend/server.js:76-84 | All entries become papers in order, or the call fails exactly when one entry fails. |
| ArxivPy.PdfUrl | frontend/main.py:66 | The replace-all address has the id's length, and an id without `abs` is its own address. |
| ArxivPy.PdfUrlStep | frontend/main.py:66 | Up to the first `abs` the address copies the id; that `abs` becomes `pdf`, and the rest of the id is rewritten the same way. |
| ArxivPy.PdfLeavesNoAbs | frontend/main.py:66 | No `abs` remains in the script's PDF address. |
| ArxivPy.PdfUrlsAgreeIff | frontend/main.py:66 | For an id without surrounding whitespace, the server's and the script's PDF addresses agree exactly when `abs` occurs at most once. |
| ArxivPy.AbsDoesNotOverlap | frontend/main.py:66 | Two occurrences of `abs` never overlap. |
| ArxivPy.NamesOf | frontend/main.py:61 | The names of a list of authors, in order, each the JSON value of its text (`null` for `None`); the comprehension raises exactly when some author has no `name` key. |
| ArxivPy.PaperOf | frontend/main.py:59-68 | An entry gives a paper exactly when it is complete, and raises otherwise. The paper's fields against the raw element text are stated by `Compare.EntriesAgree`. |
| ArxivPy.PapersOf | frontend/main.py:58-69 | One paper per entry, in order, even when its PDF step fails. The loop raises exactly when some entry lacks `title`, `published` or `author`, has no id text to call `replace` on, or has an author without `name`. |
| ArxivPy.TopicPapers | frontend/main.py:53-58 | States nothing itself. When a topic gives no papers and when it raises is stated by `ArxivPy.TopicFailsIff`, and the papers by `ArxivPy.PapersOf`. |
| ArxivPy.TopicFailsIff | frontend/main.py:53-58 | A failed request gives no papers, and so does a document without `feed`. A topic raises exactly when the body is not XML, `feed` is not a mapping, or some entry is incomplete. |
| ArxivPy.HarvestFailsIff | frontend/main.py:50-69 | The script stops with an exception exactly when some topic's entries raise. |
| ArxivPy.HarvestAppend | frontend/main.py:51-69 | Two topic lists in turn fail exactly when one of them fails; otherwise the results are the first list's papers followed by the second's. |
| ArxivPy.HarvestOne | frontend/main.py:51-69 | A one-topic list yields exactly that topic's papers, or its exception. |
| ArxivPy.ScriptHarvest | frontend/main.py:8-10 | The script's fixed topic list harvests exactly the papers of "Product education", or raises when that topic does. |
| Llm.CallOpenAI | backend/server.js:235-266 | A reply comes back trimmed. The missing-key case is stated by `Llm.MissingKeyNeverCalls`, and the reply's relation to the first choice by `Llm.ReplyIsUnpaddedChoice`. |
| Llm.MissingKeyNeverCalls | backend/server.js:236-239 | Without a key the outcome does not depend on the chat service: the request is never sent. |
| Llm.ReplyIsUnpaddedChoice | backend/server.js:258 | A reply is the first choice's text with only its surrounding whitespace removed, and it has none left. |
| Llm.SecondPrompt | backend/server.js:162 | The second prompt is the fixed request followed by the first reply in quotes. |
| Llm.SecondPromptQuotesReply | backend/server.js:162 | The first reply reaches the second call verbatim, whatever it contains. |
| Llm.SecondMessages | backend/server.js:164-167 | The second conversation's user message quotes the first reply. |
| Ingest.DownloadAndParsePdf | backend/server.js:96-108 | A failure gives the empty text. Otherwise the text is the extracted text with every NUL removed and every other character kept, as often as it occurs. |
| Ingest.DownloadedTextIsStored | backend/server.js:192-213 | A paper whose download succeeds is stored whole: its records spell the downloaded text without NULs, and there are records exactly when that text is not empty. |
| Ingest.PaperRecords | backend/server.js:194-213 | Partial on its own: empty text gives no records. That there are records exactly for non-empty text, and that they spell it, is stated by `Ingest.PaperRecordsSpellText`. |
| Ingest.PaperRecordsSpellText | backend/server.js:194-213 | A paper has records exactly when its text is non-empty. Together the records spell the text without NULs. |
| Ingest.PaperRecordsKeepText | backend/server.js:194-213 | For NUL-free text, such as every downloaded text, the records spell all of it. |
| Ingest.PaperRecordsFields | backend/server.js:203-210 | Every record copies title, authors, link, date and PDF address, and holds at most 20000 characters. |
| Ingest.PaperRecordsNumbered | backend/server.js:211 | The `k`-th record's `chunk_order` is exactly the one-element list holding the decimal numeral of `k + 1`, which reads back as `k + 1`. |
| Ingest.RecordsOfAt | backend/server.js:203-212 | The `k`-th record is built from the `k`-th chunk. |
| Ingest.FailedDownloadSkipsPaper | backend/server.js:192-197 | A paper whose download fails adds no record. |
| Ingest.PapersRecordsAppend | backend/server.js:190-214 | Papers' records come in paper order. |
| Ingest.CollectFailsIff | backend/server.js:183-188 | Collecting fails exactly when fetching some cleaned topic's papers fails. |
| Ingest.CollectRecordsAppend | backend/server.js:183-215 | Two topic lists in turn fail exactly when one of them fails; otherwise the records are the first list's followed by the second's. |
| Ingest.CollectRecordsOne | backend/server.js:183-215 | One topic contributes exactly its own records. |
| Ingest.Collect | backend/server.js:149-215 | States nothing itself. When collecting fails is stated by `Ingest.CollectFailsIff` and `Ingest.MissingKeyIsServerError`, and the records by `Ingest.CollectRecordsAppend` and `Ingest.CollectRecordsOne`. |
| Ingest.HandleSearch | backend/server.js:139-226 | States nothing itself. The responses are stated by `Ingest.InvalidQueryIgnoresServices` (400), `Ingest.MissingKeyIsServerError` and `Ingest.FailedUploadKeepsEarlierBatches` (500), and `Ingest.UploadedMeansStored` (success). |
| Ingest.ValidQuery | backend/server.js:143-145 | A query passes exactly when present and not all whitespace. |
| Ingest.InvalidQueryIgnoresServices | backend/server.js:142-145 | A missing or blank query is answered with 400 and the fixed message, whatever the services would do. |
| Ingest.MissingKeyIsServerError | backend/server.js:222-239 | With no API key a valid query always gets the generic 500 answer. |
| Ingest.UploadedMeansStored | backend/server.js:218-221 | A success response's count is the number of records the database now holds, and those are all the records. |
| Ingest.FailedUploadKeepsEarlierBatches | backend/server.js:218-225 | A rejected batch gives a server error, yet the batches before it stay stored. |
| Compare.PyStrip | frontend/main.py:24 | Python's `str.strip`, which the script's converter applies to element text: the result is no longer than the text and neither starts nor ends with Python whitespace. |
| Compare.WhitespaceSetsDiffer | frontend/main.py:24 | JavaScript's `trim` and Python's `strip` disagree on exactly six characters: U+001C to U+001F, NEXT LINE (U+0085) and the byte-order mark (U+FEFF). |
| Compare.StripAgreesWithTrim | backend/server.js:77-81 | On text without those six characters, `strip` and `trim` give the same text. |
| Compare.NextLineSplitsStripAndTrim | backend/server.js:79 | A name `<NEL>Ada` stays as it is on the server but loses its NEXT LINE in the script. |
| Compare.ServerAuthors | backend/server.js:78-80 | From the author elements the server gets each name trimmed, in order, and throws exactly when there is no author or an author has no `name`. |
| Compare.ScriptAuthors | frontend/main.py:61 | From the same elements the script gets each name stripped, `null` when nothing is left, and raises exactly when the server throws. |
| Compare.AuthorsAgree | backend/server.js:78-80 | For the same author elements, the server throws exactly when the script raises. Names are trimmed on one side and stripped on the other; without the six disputed characters the script's name is the server's, `null` where the server's is empty. |
| Compare.EntriesAgree | backend/server.js:76-84 | The server keeps an entry exactly when it is complete and its date converts; the script exactly when it is complete and its id is not blank. Fields are the raw text trimmed or stripped. Without the six disputed characters in title and id, the titles and links agree, and the PDF addresses agree exactly when `abs` occurs at most once in the link. |
| Compare.FailedPdfScriptKeepsServerSkips | backend/server.js:192-197 | A complete entry whose PDF cannot be fetched from either address is kept by the script with empty text but adds no record on the server. |

## Left out

- HTTP plumbing is not modelled: Express, CORS, the routes and `app.listen`.
- Logging and the console output are not modelled.
- The network calls to the chat API, arXiv and PDF hosts are parameters (`Env`). So are the XML converters (`xml2js`, `xmltodict`), PDF text extraction (`pdf-parse`, `pdfplumber`), `new Date(…).toISOString()` and the Supabase insert. They are modelled only through their success or failure.
- The TypeScript backend (`backend/src/…`), the React front end and the embedding search are not part of this model: they are database calls, API calls and floating point.
- Strings are sequences of Unicode scalar values. JavaScript's UTF-16 code units differ for characters outside the Basic Multilingual Plane; this affects the chunk length measured in `splitTextIntoChunks`.
- Chunker.SplitTextIntoChunks: requires `maxLength >= 1`. With `maxLength <= 0` the source loop never advances and does not terminate.
- Topics.CleanTopic: does not promise that a cleaned topic lacks a leading `<digits>.`, because the code removes only one enumeration (`Topics.CleanRemovesOnlyOneNumber`). A decimal such as `1.5 million` also loses its `1.`.
- ArxivPy: an element repeated inside one entry (two `title` elements, say) converts to a list in the script, and an element carrying attributes or child elements converts to a mapping on both sides. Each leaf of `PyEntry` is text, `None` or missing, so these shapes are not modelled; `Compare` likewise covers leaves that occur at most once and hold only text.
- Compare: both converters are taken to receive the same character data from the XML parser. Entity decoding, CDATA sections and line-end normalisation are the parser's and are not modelled.
- Batching.UploadInBatches: requires `batchSize >= 1`. With a batch size of 0 the loop at backend/server.js:118 never advances and does not terminate; the handler always passes 500.
- ArxivPy: `page.extract_text()` returning `None` raises inside `download_and_parse_pdf`, which catches it; it is part of the `pdf` parameter's failure.
- The Python script writing the JSON file and printing are not modelled.
- Ingest.ValidQuery: a `query` that is not a string (a number, say) makes `trim` throw outside the handler's `try`; only strings and a missing query are modelled.
- Arxiv.FetchArxivPapers: the xml2js converter always yields lists for child elements. The model also admits a single entry or author, as the code does.

=== FILE: arxiv.dfy ===
/** The ingestion server's arXiv lookup: the query it sends, and how it turns
    the parsed Atom feed into paper descriptions. The feed arrives as the
    XML-to-object converter leaves it: every child element is a list of
    occurrences, while `feed.entry` and `entry.author` are accepted as a single
    item, a list, or missing. Reading the first element of an empty list, or a
    field of a missing author, throws; any exception becomes the one error
    the function reports. */
module Arxiv {
  import opened Wrappers
  import opened JsText

  /** The query parameters sent to the arXiv API. */
  datatype ArxivQuery = ArxivQuery(searchQuery: string, start: nat, maxResults: nat)

  const DefaultMaxResults: nat := 5

  /** `fetchArxivPapers(query)` asks for `all:<query>`, from the first result,
      at most five results. */
  function QueryFor(query: string): ArxivQuery
  {
    ArxivQuery("all:" + query, 0, DefaultMaxResults)
  }

  datatype JsAuthor = JsAuthor(name: seq<string>)

  datatype JsEntry = JsEntry(
    title: seq<string>,
    author: Multi<JsAuthor>,
    id: seq<string>,
    published: seq<string>)

  datatype JsFeed = JsFeed(entry: Multi<JsEntry>)

  /** The converted document; `feed` is missing when the root is not a feed. */
  datatype JsDoc = JsDoc(feed: Option<JsFeed>)

  /** One paper as the server describes it. */
  datatype Paper = Paper(title: string, authors: seq<string>, link: string, date: string, pdfUrl: string)

  /** The single error `fetchArxivPapers` throws, whatever went wrong. */
  datatype FetchError = FetchFailed

  /** `parsedData.feed.entry || []` followed by the array coercion. */
  function EntryList<T>(entry: Multi<T>): seq<T>
  {
    match entry
    case Absent => []
    case One(e) => [e]
    case Many(es) => es
  }

  /** `list[0].trim()`: throws when the list is empty. */
  function FirstTrimmed(list: seq<string>): Option<string>
  {
    if |list| == 0 then None else Some(Trim(list[0]))
  }

  /** The names of a list of authors, in order; `None` as soon as one has no name. */
  function AuthorNames(authors: seq<JsAuthor>): (names: Option<seq<string>>)
    ensures names.Some? <==> forall k :: 0 <= k < |authors| ==> |authors[k].name| > 0
    ensures names.Some? ==> |names.value| == |authors|
    ensures names.Some? ==> forall k :: 0 <= k < |authors| ==> names.value[k] == Trim(authors[k].name[0])
  {
    if |authors| == 0 then Some([])
    else
      match (FirstTrimmed(authors[0].name), AuthorNames(authors[1..]))
      case (Some(n), Some(ns)) => Some([n] + ns)
      case _ => None
  }

  /** The `authors` field: a list of authors is mapped, a single author becomes
      a one-element list, and a missing author throws. */
  function EntryAuthors(author: Multi<JsAuthor>): Option<seq<string>>
  {
    match author
    case Absent => None
    case One(a) => AuthorNames([a])
    case Many(list) => AuthorNames(list)
  }

  /** `entry.id[0].replace('abs', 'pdf').trim()`: only the first `abs` is replaced. */
  function PdfUrl(id: string): (url: string)
    ensures |url| <= |id|
  {
    Trim(ReplaceFirst(id, "abs", "pdf"))
  }

  /** One entry as a paper. `toIso` stands for `new Date(s).toISOString()`,
      `None` where that throws; an entry without `published` throws too. */
  function NormalizeEntry(entry: JsEntry, toIso: string -> Option<string>): (p: Option<Paper>)
    ensures p.Some? ==> Trim(p.value.title) == p.value.title && Trim(p.value.link) == p.value.link
    ensures p.Some? ==> Trim(p.value.pdfUrl) == p.value.pdfUrl
  {
    if |entry.title| == 0 || |entry.id| == 0 || |entry.published| == 0 then None
    else
      match (EntryAuthors(entry.author), toIso(entry.published[0]))
      case (Some(authors), Some(date)) =>
        TrimIdempotent(entry.title[0]);
        TrimIdempotent(entry.id[0]);
        TrimIdempotent(ReplaceFirst(entry.id[0], "abs", "pdf"));
        Some(Paper(Trim(entry.title[0]), authors, Trim(entry.id[0]), date, PdfUrl(entry.id[0])))
      case _ => None
  }

  /** `papers.map(...)`: all entries as papers, in order, or `None` when one
      of them throws. */
  function NormalizeEntries(entries: seq<JsEntry>, toIso: string -> Option<string>): (ps: Option<seq<Paper>>)
    ensures ps.Some? <==> forall k :: 0 <= k < |entries| ==> NormalizeEntry(entries[k], toIso).Some?
    ensures ps.Some? ==> |ps.value| == |entries|
    ensures ps.Some? ==> forall k :: 0 <= k < |entries| ==> ps.value[k] == NormalizeEntry(entries[k], toIso).value
  {
    if |entries| == 0 then Some([])
    else
      match (NormalizeEntry(entries[0], toIso), NormalizeEntries(entries[1..], toIso))
      case (Some(p), Some(ps)) => Some([p] + ps)
      case _ => None
  }

  /** `fetchArxivPapers(query)`. `fetch` is the HTTP request followed by the
      XML conversion, `None` where either throws. */
  function FetchArxivPapers(query: string, fetch: ArxivQuery -> Option<JsDoc>, toIso: string -> Option<string>)
    : (r: Result<seq<Paper>, FetchError>)
    ensures r.Ok? ==> forall k :: 0 <= k < |r.value| ==>
      Trim(r.value[k].title) == r.value[k].title && Trim(r.value[k].link) == r.value[k].link
  {
    match fetch(QueryFor(query))
    case None => Err(FetchFailed)
    case Some(doc) =>
      match doc.feed
      case None => Err(FetchFailed)
      case Some(feed) =>
        match NormalizeEntries(EntryList(feed.entry), toIso)
        case None => Err(FetchFailed)
        case Some(papers) => Ok(papers)
  }

  /** A single author is handled as a one-author list. */
  lemma SingleAuthorIsList(a: JsAuthor)
    ensures EntryAuthors(One(a)) == EntryAuthors(Many([a]))
  {
  }

  /** A feed with a single entry gives what a feed listing that one entry
      gives. */
  lemma SingleEntryIsList(query: string, e: JsEntry, toIso: string -> Option<string>,
                          one: ArxivQuery -> Option<JsDoc>, many: ArxivQuery -> Option<JsDoc>)
    requires one(QueryFor(query)) == Some(JsDoc(Some(JsFeed(One(e)))))
    requires many(QueryFor(query)) == Some(JsDoc(Some(JsFeed(Many([e])))))
    ensures FetchArxivPapers(query, one, toIso) == FetchArxivPapers(query, many, toIso)
  {
  }

  /** The lookup fails exactly when the request or conversion fails, the
      document has no feed, or a single entry cannot be normalised: one bad
      entry loses the papers of the whole topic. */
  lemma FetchFailsIff(query: string, fetch: ArxivQuery -> Option<JsDoc>, toIso: string -> Option<string>)
    ensures FetchArxivPapers(query, fetch, toIso).Err? <==>
      || fetch(QueryFor(query)).None?
      || fetch(QueryFor(query)).value.feed.None?
      || (var entries := EntryList(fetch(QueryFor(query)).value.feed.value.entry);
          exists k :: 0 <= k < |entries| && NormalizeEntry(entries[k], toIso).None?)
  {
  }

  /** The PDF address is the trimmed id exactly when `abs` does not occur
      in the id: the first `abs` always lies inside the trimmed part. */
  lemma PdfUrlIsTrimmedIdIff(id: string)
    ensures PdfUrl(id) == Trim(id) <==> forall k :: !OccursAt(id, "abs", k)
  {
    var i := IndexOf(id, "abs");
    if i >= 0 {
      var r := ReplaceFirst(id, "abs", "pdf");
      ReplaceFirstSameShape(id, "abs", "pdf");
      assert id[i] == 'a' by {
        assert id[i..i + 3] == "abs";
      }
      assert r[i] == 'p' by {
        assert r == id[..i] + "pdf" + id[i + 3..];
      }
      TrimSeesDifference(id, r, i);
    }
  }

  /** A paper's PDF address equals its link exactly when `abs` does not occur
      in the id. */
  lemma PdfUrlIsLinkIff(entry: JsEntry, toIso: string -> Option<string>)
    requires NormalizeEntry(entry, toIso).Some?
    ensures NormalizeEntry(entry, toIso).value.pdfUrl == NormalizeEntry(entry, toIso).value.link
      <==> forall k :: !OccursAt(entry.id[0], "abs", k)
  {
    PdfUrlIsTrimmedIdIff(entry.id[0]);
  }

  /** Different topics give different queries: the topic can be read back. */
  lemma QueryForInjective(a: string, b: string)
    ensures QueryFor(a) == QueryFor(b) <==> a == b
  {
    if QueryFor(a) == QueryFor(b) {
      assert ("all:" + a)[4..] == a;
      assert ("all:" + b)[4..] == b;
    }
  }

  /** Replacing `abs` by `pdf` keeps the ends of an address without
      surrounding whitespace free of whitespace, so the server's final trim changes nothing. */
  lemma ReplaceFirstUntrimmed(id: string)
    requires Trim(id) == id
    ensures Trim(ReplaceFirst(id, "abs", "pdf")) == ReplaceFirst(id, "abs", "pdf")
  {
    var r := ReplaceFirst(id, "abs", "pdf");
    TrimIdentityIff(id);
    TrimIdentityIff(r);
    if |r| > 0 {
      ReplaceFirstAligned(id, "abs", "pdf", 0);
      ReplaceFirstAligned(id, "abs", "pdf", |r| - 1);
      assert forall c :: c in "pdf" ==> !IsWhitespace(c);
    }
  }

  /** The letters of an occurrence of `abs`. */
  lemma AbsLetters(id: string, f: nat)
    requires OccursAt(id, "abs", f)
    ensures id[f] == 'a' && id[f + 2] == 's'
  {
    assert id[f..f + 3] == "abs";
  }

  /** The first `abs` of an id lies inside its trimmed part, where it is
      also the first `abs`. */
  lemma FirstAbsInsideTrim(id: string, f: nat)
    requires OccursAt(id, "abs", f) && forall j :: 0 <= j < f ==> !OccursAt(id, "abs", j)
    ensures var a := WhitespaceEnd(id, 0);
      && a <= f && f + 3 <= WhitespaceStart(id, a, |id|)
      && OccursAt(Trim(id), "abs", f - a)
      && forall j :: 0 <= j < f - a ==> !OccursAt(Trim(id), "abs", j)
  {
    var a := WhitespaceEnd(id, 0);
    var b := WhitespaceStart(id, a, |id|);
    AbsLetters(id, f);
    NonWhitespaceInsideTrim(id, f);
    NonWhitespaceInsideTrim(id, f + 2);
    FirstOccurrenceInSlice(id, "abs", a, b, f);
  }

  /** Without `abs`, both addresses are the trimmed id. */
  lemma PdfUrlOfTrimmedIdNoAbs(id: string)
    requires IndexOf(id, "abs") < 0
    ensures PdfUrl(id) == PdfUrl(Trim(id))
  {
    var a := WhitespaceEnd(id, 0);
    var b := WhitespaceStart(id, a, |id|);
    assert ReplaceFirst(id, "abs", "pdf") == id;
    NoOccurrenceInSlice(id, "abs", a, b);
    assert ReplaceFirst(Trim(id), "abs", "pdf") == Trim(id);
    TrimIdempotent(id);
  }

  /** Rewriting the three letters at `f` and then cutting the window
      `a..b` around them is cutting first and rewriting the same letters. */
  lemma SpliceWindow(id: string, a: nat, b: nat, f: nat)
    requires a <= f && f + 3 <= b <= |id|
    ensures (id[..f] + "pdf" + id[f + 3..])[a..b] == id[a..b][..f - a] + "pdf" + id[a..b][f - a + 3..]
  {
    SliceOfSplice(id, "pdf", f, a, b);
    SliceOfSlice(id, a, b, 0, f - a);
    SliceOfSlice(id, a, b, f - a + 3, b - a);
  }

  /** Neither `abs` nor `pdf` holds whitespace. */
  lemma AbsPdfNoWhitespace()
    ensures forall k :: 0 <= k < 3 ==> !IsWhitespace("abs"[k]) && !IsWhitespace("pdf"[k])
  {
    assert "abs"[0] == 'a' && "abs"[1] == 'b' && "abs"[2] == 's';
    assert "pdf"[0] == 'p' && "pdf"[1] == 'd' && "pdf"[2] == 'f';
  }

  /** The PDF address of an id is the window of its rewritten text that
      trimming the id keeps. */
  lemma PdfUrlIsRewrittenWindow(id: string, f: nat)
    requires OccursAt(id, "abs", f) && forall j :: 0 <= j < f ==> !OccursAt(id, "abs", j)
    ensures var a := WhitespaceEnd(id, 0);
      var b := WhitespaceStart(id, a, |id|);
      PdfUrl(id) == (id[..f] + "pdf" + id[f + 3..])[a..b]
  {
    ReplaceFirstAtFirst(id, "abs", "pdf", f);
    AbsPdfNoWhitespace();
    SpliceSameShape(id, "abs", "pdf", f);
    TrimSameShape(id, id[..f] + "pdf" + id[f + 3..]);
  }

  /** On an id without surrounding whitespace the PDF address rewrites the
      first `abs` and nothing else. */
  lemma PdfUrlOfUntrimmedAt(id: string, f: nat)
    requires Trim(id) == id
    requires OccursAt(id, "abs", f) && forall j :: 0 <= j < f ==> !OccursAt(id, "abs", j)
    ensures PdfUrl(id) == id[..f] + "pdf" + id[f + 3..]
  {
    ReplaceFirstUntrimmed(id);
    ReplaceFirstAtFirst(id, "abs", "pdf", f);
  }

  /** With its first `abs` at `f`, both addresses rewrite the same `abs`. */
  lemma PdfUrlOfTrimmedIdAbs(id: string, f: nat)
    requires OccursAt(id, "abs", f) && forall j :: 0 <= j < f ==> !OccursAt(id, "abs", j)
    ensures PdfUrl(id) == PdfUrl(Trim(id))
  {
    var a := WhitespaceEnd(id, 0);
    var b := WhitespaceStart(id, a, |id|);
    PdfUrlIsRewrittenWindow(id, f);
    FirstAbsInsideTrim(id, f);
    TrimIdempotent(id);
    PdfUrlOfUntrimmedAt(Trim(id), f - a);
    SpliceWindow(id, a, b, f);
  }

  /** Whitespace around an id does not change its PDF address. */
  lemma PdfUrlOfTrimmedId(id: string)
    ensures PdfUrl(id) == PdfUrl(Trim(id))
  {
    var f := IndexOf(id, "abs");
    if f < 0 {
      PdfUrlOfTrimmedIdNoAbs(id);
    } else {
      PdfUrlOfTrimmedIdAbs(id, f);
    }
  }
}

=== FILE: arxiv_py.dfy ===
/** The stand-alone harvesting script: for each topic of a fixed list it asks
    arXiv for papers and records each entry with the text of its PDF. The
    feed arrives as the XML-to-dictionary converter leaves it: leaf elements
    are strings, while `entry` and `author` are a single item, a list, or
    missing. A failed request skips the topic and a failed PDF step keeps the
    paper with empty text; everything else that goes wrong raises and ends
    the script. */
module ArxivPy {
  import opened Wrappers
  import opened JsText
  import Arxiv

  /** A value the loop body reads by key: the key is missing (reading it
      raises `KeyError`), the value is `None` (an element without text), or
      the element's text. */
  datatype PyValue = Missing | Null | Text(text: string)

  /** The JSON value a present key contributes: `null` or the string. */
  function JsonValue(v: PyValue): (json: Option<string>)
    requires !v.Missing?
    ensures json.Some? <==> v.Text?
    ensures v.Text? ==> json.value == v.text
  {
    if v.Null? then None else Some(v.text)
  }

  /** An `author` element. Its `name` is `Missing` when it has no `name`
      child; an `author` element that converts to `None` fails the same way,
      since indexing `None` raises too. */
  datatype PyAuthor = PyAuthor(name: PyValue)

  /** An `entry` element; an entry that converts to `None` fails like one
      whose keys are all missing. */
  datatype PyEntry = PyEntry(
    title: PyValue,
    author: Multi<PyAuthor>,
    id: PyValue,
    published: PyValue)

  datatype PyFeed = PyFeed(entry: Multi<PyEntry>)

  /** The `feed` value of the converted document: no `feed` key (or no
      document at all), a value that is not a mapping (an empty `feed`
      element converts to `None`), or a mapping. */
  datatype PyFeedField = NoFeed | NotMapping | Feed(feed: PyFeed)

  datatype PyDoc = PyDoc(feed: PyFeedField)

  /** How `fetch_arxiv_papers` ends: the request fails (caught, `None`), the
      body is not XML (the parser raises past the `except`), or a document. */
  datatype PyResponse = RequestError | NotXml | Parsed(doc: PyDoc)

  /** One harvested paper; `None` stands for JSON `null`. */
  datatype PyPaper = PyPaper(
    title: Option<string>,
    authors: seq<Option<string>>,
    link: string,
    date: Option<string>,
    content: string)

  /** The topics the script harvests. */
  const ScriptTopics: seq<string> := ["Product education"]

  /** `entry["id"].replace("abs", "pdf")`: every `abs` is replaced. */
  function PdfUrl(id: string): (url: string)
    ensures |url| == |id|
    ensures (forall k :: !OccursAt(id, "abs", k)) ==> url == id
  {
    ReplaceAll(id, "abs", "pdf")
  }

  /** The script's address rewrites the first `abs` and carries on with the
      rest of the id. */
  lemma PdfUrlStep(id: string, i: nat)
    requires OccursAt(id, "abs", i) && forall j :: 0 <= j < i ==> !OccursAt(id, "abs", j)
    ensures PdfUrl(id) == id[..i] + "pdf" + PdfUrl(id[i + 3..])
  {
    ReplaceAllAtFirst(id, "abs", "pdf", i);
  }

  /** `[author["name"] for author in authors]`: the names in order, `None`
      (the script raises) as soon as one author has no `name`. */
  function NamesOf(authors: seq<PyAuthor>): (names: Option<seq<Option<string>>>)
    ensures names.Some? <==> forall k :: 0 <= k < |authors| ==> !authors[k].name.Missing?
    ensures names.Some? ==> |names.value| == |authors|
    ensures names.Some? ==> forall k :: 0 <= k < |authors| ==> names.value[k] == JsonValue(authors[k].name)
  {
    if |authors| == 0 then Some([])
    else if authors[0].name.Missing? then None
    else
      match NamesOf(authors[1..])
      case Some(ns) => Some([JsonValue(authors[0].name)] + ns)
      case None => None
  }

  /** The `authors` field: a list of authors is mapped, a single author becomes
      a one-element list, and a missing author raises. */
  function AuthorNames(author: Multi<PyAuthor>): Option<seq<Option<string>>>
  {
    match author
    case Absent => None
    case One(a) => NamesOf([a])
    case Many(list) => NamesOf(list)
  }

  /** Every key the loop body reads is present, the id is a string (the
      script calls `replace` on it), and every author has a name. */
  predicate EntryComplete(entry: PyEntry) {
    && !entry.title.Missing? && entry.id.Text? && !entry.published.Missing?
    && AuthorNames(entry.author).Some?
  }

  /** `download_and_parse_pdf(url)`: `pdf` is the download and text
      extraction, `None` where it raises; the error becomes the empty text. */
  function DownloadAndParsePdf(url: string, pdf: string -> Option<string>): string
  {
    match pdf(url)
    case None => []
    case Some(t) => t
  }

  /** One entry's record, `None` where building it raises. */
  function PaperOf(entry: PyEntry, pdf: string -> Option<string>): (p: Option<PyPaper>)
    ensures p.Some? <==> EntryComplete(entry)
  {
    if entry.title.Missing? || !entry.id.Text? || entry.published.Missing? then None
    else
      match AuthorNames(entry.author)
      case None => None
      case Some(authors) =>
        var id := entry.id.text;
        Some(PyPaper(JsonValue(entry.title), authors, id, JsonValue(entry.published),
                     DownloadAndParsePdf(PdfUrl(id), pdf)))
  }

  /** The loop over the entries: one record per entry, in order, even when its
      PDF step fails; `None` as soon as one entry raises. */
  function PapersOf(entries: seq<PyEntry>, pdf: string -> Option<string>): (ps: Option<seq<PyPaper>>)
    ensures ps.Some? <==> forall k :: 0 <= k < |entries| ==> EntryComplete(entries[k])
    ensures ps.Some? ==> |ps.value| == |entries|
    ensures ps.Some? ==> forall k :: 0 <= k < |entries| ==> ps.value[k] == PaperOf(entries[k], pdf).value
  {
    if |entries| == 0 then Some([])
    else
      match (PaperOf(entries[0], pdf), PapersOf(entries[1..], pdf))
      case (Some(p), Some(ps)) => Some([p] + ps)
      case _ => None
  }

  /** The records of one topic. `fetch` is the request and conversion: a
      failed request, like a document without `feed`, adds nothing. */
  function TopicPapers(topic: string, fetch: Arxiv.ArxivQuery -> PyResponse, pdf: string -> Option<string>)
    : Option<seq<PyPaper>>
  {
    match fetch(Arxiv.QueryFor(topic))
    case RequestError => Some([])
    case NotXml => None
    case Parsed(doc) =>
      match doc.feed
      case NoFeed => Some([])
      case NotMapping => None
      case Feed(feed) => PapersOf(Arxiv.EntryList(feed.entry), pdf)
  }

  /** A topic raises exactly when the response is not XML, its `feed` is not
      a mapping, or one of its entries is incomplete; a failed request, like a
      document without `feed`, adds nothing. */
  lemma TopicFailsIff(topic: string, fetch: Arxiv.ArxivQuery -> PyResponse, pdf: string -> Option<string>)
    ensures fetch(Arxiv.QueryFor(topic)).RequestError? ==> TopicPapers(topic, fetch, pdf) == Some([])
    ensures fetch(Arxiv.QueryFor(topic)).Parsed? && fetch(Arxiv.QueryFor(topic)).doc.feed.NoFeed? ==>
      TopicPapers(topic, fetch, pdf) == Some([])
    ensures TopicPapers(topic, fetch, pdf).None? <==>
      || fetch(Arxiv.QueryFor(topic)).NotXml?
      || (fetch(Arxiv.QueryFor(topic)).Parsed? && fetch(Arxiv.QueryFor(topic)).doc.feed.NotMapping?)
      || (&& fetch(Arxiv.QueryFor(topic)).Parsed? && fetch(Arxiv.QueryFor(topic)).doc.feed.Feed?
          && var entries := Arxiv.EntryList(fetch(Arxiv.QueryFor(topic)).doc.feed.feed.entry);
             exists k :: 0 <= k < |entries| && !EntryComplete(entries[k]))
  {
  }

  /** The loop body for one topic. */
  function TopicStep(fetch: Arxiv.ArxivQuery -> PyResponse, pdf: string -> Option<string>)
    : string -> Option<seq<PyPaper>>
  {
    topic => TopicPapers(topic, fetch, pdf)
  }

  /** The script's `results`: the records of every topic, topic by topic;
      `None` when the script stops with an exception. */
  function Harvest(topics: seq<string>, fetch: Arxiv.ArxivQuery -> PyResponse, pdf: string -> Option<string>)
    : Option<seq<PyPaper>>
  {
    ConcatMap(TopicStep(fetch, pdf), topics)
  }

  /** The script stops with an exception exactly when some topic raises. */
  lemma HarvestFailsIff(topics: seq<string>, fetch: Arxiv.ArxivQuery -> PyResponse, pdf: string -> Option<string>)
    ensures Harvest(topics, fetch, pdf).None? <==>
      exists k :: 0 <= k < |topics| && TopicPapers(topics[k], fetch, pdf).None?
  {
    ConcatMapSomeIff(TopicStep(fetch, pdf), topics);
    if Harvest(topics, fetch, pdf).None? {
      var k :| 0 <= k < |topics| && TopicStep(fetch, pdf)(topics[k]).None?;
      assert TopicPapers(topics[k], fetch, pdf).None?;
    } else {
      forall k | 0 <= k < |topics| ensures TopicPapers(topics[k], fetch, pdf).Some? {
        assert TopicStep(fetch, pdf)(topics[k]).Some?;
      }
    }
  }

  /** Harvesting two topic lists one after the other fails exactly when one
      of them fails, and otherwise gives the records of the first followed by
      those of the second. */
  lemma HarvestAppend(a: seq<string>, b: seq<string>,
                      fetch: Arxiv.ArxivQuery -> PyResponse, pdf: string -> Option<string>)
    ensures Harvest(a + b, fetch, pdf).Some? <==> Harvest(a, fetch, pdf).Some? && Harvest(b, fetch, pdf).Some?
    ensures Harvest(a + b, fetch, pdf).Some? ==>
      Harvest(a + b, fetch, pdf).value == Harvest(a, fetch, pdf).value + Harvest(b, fetch, pdf).value
  {
    ConcatMapAppend(TopicStep(fetch, pdf), a, b);
  }

  /** A single topic's harvest is that topic's outcome, records or exception. */
  lemma HarvestOne(topic: string, fetch: Arxiv.ArxivQuery -> PyResponse, pdf: string -> Option<string>)
    ensures Harvest([topic], fetch, pdf) == TopicPapers(topic, fetch, pdf)
  {
    ConcatMapOne(TopicStep(fetch, pdf), topic);
  }

  /** The script as written harvests its one topic: its `results` are that
      topic's records, and it raises exactly when that topic does. */
  lemma ScriptHarvest(fetch: Arxiv.ArxivQuery -> PyResponse, pdf: string -> Option<string>)
    ensures Harvest(ScriptTopics, fetch, pdf) == TopicPapers("Product education", fetch, pdf)
  {
    HarvestOne("Product education", fetch, pdf);
  }

  // ---------------------------------------------------------------------------
  // the two PDF addresses
  // ---------------------------------------------------------------------------

  /** No occurrence of `abs` overlaps another. */
  lemma AbsDoesNotOverlap(s: string, i: nat, j: nat)
    requires OccursAt(s, "abs", i) && OccursAt(s, "abs", j) && i < j
    ensures i + 3 <= j
  {
    assert s[j] == s[j..j + 3][0] == 'a';
    assert s[i + 1] == s[i..i + 3][1] == 'b';
    assert s[i + 2] == s[i..i + 3][2] == 's';
  }

  /** On an address without surrounding whitespace, the server's first-only
      replacement and the script's replace-all give the same PDF address
      exactly when `abs` occurs at most once. */
  lemma PdfUrlsAgreeIff(id: string)
    requires Trim(id) == id
    ensures Arxiv.PdfUrl(id) == PdfUrl(id) <==> AtMostOnce(id, "abs")
  {
    var first := ReplaceFirst(id, "abs", "pdf");
    Arxiv.ReplaceFirstUntrimmed(id);
    assert Arxiv.PdfUrl(id) == first;
    if AtMostOnce(id, "abs") {
      ReplaceFirstIsReplaceAllWhenAtMostOnce(id, "abs", "pdf");
    } else {
      var i, j :| OccursAt(id, "abs", i) && OccursAt(id, "abs", j) && i != j;
      var f := IndexOf(id, "abs");
      var g := if i == f then j else i;
      assert OccursAt(id, "abs", g) && f < g;
      AbsDoesNotOverlap(id, f, g);
      ReplaceFirstKeepsLater(id, "abs", "pdf", g);
      PdfLeavesNoAbs(id);
      assert !OccursAt(PdfUrl(id), "abs", g);
    }
  }

  /** The script's address holds no `abs` at all. */
  lemma PdfLeavesNoAbs(id: string)
    ensures forall k :: !OccursAt(PdfUrl(id), "abs", k)
  {
    assert forall t :: 0 <= t < 3 ==> "abs"[t] !in "pdf";
    ReplaceAllLeavesNoOccurrence(id, "abs", "pdf");
  }
}

=== FILE: batching.dfy ===
/** Uploading the assembled records: the list is cut into consecutive batches
    of `batchSize` records, inserted in order; the first batch the database
    rejects aborts the upload, and no later batch is attempted. */
module Batching {
  import opened Wrappers

  /** The batch the loop builds at offset `i`: `results.slice(i, i + batchSize)`. */
  function BatchAt<T>(results: seq<T>, batchSize: nat, i: nat): (batch: seq<T>)
    requires i <= |results|
    ensures |batch| <= batchSize
    ensures i + |batch| == Min(i + batchSize, |results|)
  {
    results[i..Min(i + batchSize, |results|)]
  }

  /** The values the loop variable takes from `i` on: `i`, `i + batchSize`, …,
      while below `n`. */
  function Offsets(n: nat, batchSize: nat, i: nat): (offsets: seq<nat>)
    requires batchSize >= 1 && i <= n
    ensures forall k :: 0 <= k < |offsets| ==> i <= offsets[k] < n
    ensures |offsets| == 0 <==> i == n
    ensures |offsets| > 0 ==> offsets[0] == i
    decreases n - i
  {
    if i == n then [] else [i] + Offsets(n, batchSize, Min(i + batchSize, n))
  }

  /** Each offset is the previous one plus `batchSize`, and one more step would
      reach the end of the list. */
  lemma {:induction false} OffsetsStep(n: nat, batchSize: nat, i: nat)
    requires batchSize >= 1 && i <= n
    ensures var offs := Offsets(n, batchSize, i);
      && (forall k :: 0 <= k < |offs| - 1 ==> offs[k + 1] == offs[k] + batchSize)
      && (|offs| > 0 ==> offs[|offs| - 1] + batchSize >= n)
    decreases n - i
  {
    if i < n {
      var next := Min(i + batchSize, n);
      var offs := Offsets(n, batchSize, i);
      var rest := Offsets(n, batchSize, next);
      OffsetsStep(n, batchSize, next);
      assert offs == [i] + rest;
      forall k | 1 <= k < |offs| - 1 ensures offs[k + 1] == offs[k] + batchSize {
        assert offs[k + 1] == rest[k] && offs[k] == rest[k - 1];
      }
    }
  }

  /** The `k`-th offset is `i + k * batchSize`. */
  lemma {:induction false} OffsetsAreMultiples(n: nat, batchSize: nat, i: nat, k: nat)
    requires batchSize >= 1 && i <= n && k < |Offsets(n, batchSize, i)|
    ensures Offsets(n, batchSize, i)[k] == i + k * batchSize
  {
    if k > 0 {
      OffsetsAreMultiples(n, batchSize, i, k - 1);
      OffsetsStep(n, batchSize, i);
      assert k * batchSize == (k - 1) * batchSize + batchSize;
    }
  }

  /** The batches from offset `i` on. */
  function BatchesFrom<T>(results: seq<T>, batchSize: nat, i: nat): seq<seq<T>>
    requires batchSize >= 1 && i <= |results|
    decreases |results| - i
  {
    if i == |results| then []
    else [BatchAt(results, batchSize, i)] + BatchesFrom(results, batchSize, Min(i + batchSize, |results|))
  }

  /** The batches of the whole list, in upload order. */
  function Batches<T>(results: seq<T>, batchSize: nat): seq<seq<T>>
    requires batchSize >= 1
  {
    BatchesFrom(results, batchSize, 0)
  }

  /** Nothing is lost or repeated: the batches put back together are the list. */
  lemma {:induction false} BatchesConcat<T>(results: seq<T>, batchSize: nat, i: nat)
    requires batchSize >= 1 && i <= |results|
    ensures Flatten(BatchesFrom(results, batchSize, i)) == results[i..]
    decreases |results| - i
  {
    if i < |results| {
      var next := Min(i + batchSize, |results|);
      var bs := BatchesFrom(results, batchSize, i);
      BatchesConcat(results, batchSize, next);
      assert bs[1..] == BatchesFrom(results, batchSize, next);
      assert results[i..] == results[i..next] + results[next..];
    }
  }

  /** There is one batch per offset, the slice starting there; every batch is
      non-empty and holds at most `batchSize` records. */
  lemma {:induction false} BatchesShape<T>(results: seq<T>, batchSize: nat, i: nat)
    requires batchSize >= 1 && i <= |results|
    ensures var bs := BatchesFrom(results, batchSize, i);
      var offs := Offsets(|results|, batchSize, i);
      && |bs| == |offs|
      && forall k :: 0 <= k < |bs| ==> bs[k] == BatchAt(results, batchSize, offs[k]) && 1 <= |bs[k]| <= batchSize
    decreases |results| - i
  {
    if i < |results| {
      var next := Min(i + batchSize, |results|);
      var bs := BatchesFrom(results, batchSize, i);
      var offs := Offsets(|results|, batchSize, i);
      BatchesShape(results, batchSize, next);
      var rest := BatchesFrom(results, batchSize, next);
      var restOffs := Offsets(|results|, batchSize, next);
      assert bs == [BatchAt(results, batchSize, i)] + rest;
      assert offs == [i] + restOffs;
      forall k | 1 <= k < |bs| ensures bs[k] == BatchAt(results, batchSize, offs[k]) {
        assert bs[k] == rest[k - 1] && offs[k] == restOffs[k - 1];
      }
    }
  }

  // ---------------------------------------------------------------------------
  // the upload loop
  // ---------------------------------------------------------------------------

  /** What the upload leaves behind: the records the database now holds, the
      offsets whose batches were sent, and the offset of the rejected batch
      (the call then throws). */
  datatype Upload<T> = Upload(committed: seq<T>, attempted: seq<nat>, failedAt: Option<nat>)

  /** The loop from offset `i` on. `accepts(i, batch)` is the database's answer
      to inserting `batch`, the one starting at offset `i`. */
  function UploadFrom<T>(results: seq<T>, batchSize: nat, accepts: (nat, seq<T>) -> bool, i: nat): Upload<T>
    requires batchSize >= 1 && i <= |results|
    decreases |results| - i
  {
    if i == |results| then Upload([], [], None)
    else
      var batch := BatchAt(results, batchSize, i);
      if !accepts(i, batch) then Upload([], [i], Some(i))
      else
        var rest := UploadFrom(results, batchSize, accepts, Min(i + batchSize, |results|));
        Upload(batch + rest.committed, [i] + rest.attempted, rest.failedAt)
  }

  /** `uploadToSupabaseInBatches(results, batchSize)`. */
  function UploadInBatches<T>(results: seq<T>, batchSize: nat, accepts: (nat, seq<T>) -> bool): Upload<T>
    requires batchSize >= 1
  {
    UploadFrom(results, batchSize, accepts, 0)
  }

  /** Batches are sent in offset order, each only after every earlier one was
      accepted; the last one sent is the rejected one, if any. */
  lemma {:induction false} UploadAttempts<T>(results: seq<T>, batchSize: nat, accepts: (nat, seq<T>) -> bool, i: nat)
    requires batchSize >= 1 && i <= |results|
    ensures var u := UploadFrom(results, batchSize, accepts, i);
      var offs := Offsets(|results|, batchSize, i);
      && |u.attempted| <= |offs| && u.attempted == offs[..|u.attempted|]
      && (forall k :: 0 <= k < |u.attempted| - 1 ==> accepts(u.attempted[k], BatchAt(results, batchSize, u.attempted[k])))
      && (u.failedAt.None? ==> |u.attempted| == |offs|)
    decreases |results| - i
  {
    if i < |results| && accepts(i, BatchAt(results, batchSize, i)) {
      var next := Min(i + batchSize, |results|);
      var u := UploadFrom(results, batchSize, accepts, i);
      var rest := UploadFrom(results, batchSize, accepts, next);
      var offs := Offsets(|results|, batchSize, i);
      var restOffs := Offsets(|results|, batchSize, next);
      UploadAttempts(results, batchSize, accepts, next);
      assert u.attempted == [i] + rest.attempted;
      assert offs == [i] + restOffs;
      assert offs[..|u.attempted|] == [i] + restOffs[..|rest.attempted|];
      forall k | 1 <= k < |u.attempted| - 1
        ensures accepts(u.attempted[k], BatchAt(results, batchSize, u.attempted[k]))
      {
        assert u.attempted[k] == rest.attempted[k - 1];
      }
    }
  }

  /** Without a rejection every record is stored. */
  lemma {:induction false} UploadSucceeds<T>(results: seq<T>, batchSize: nat, accepts: (nat, seq<T>) -> bool, i: nat)
    requires batchSize >= 1 && i <= |results|
    requires UploadFrom(results, batchSize, accepts, i).failedAt == None
    ensures UploadFrom(results, batchSize, accepts, i).committed == results[i..]
    decreases |results| - i
  {
    if i < |results| {
      var next := Min(i + batchSize, |results|);
      UploadSucceeds(results, batchSize, accepts, next);
      assert results[i..] == results[i..next] + results[next..];
    }
  }

  /** A rejected batch stops the upload: the database holds exactly the records
      before its offset, and nothing after it was attempted. */
  lemma {:induction false} UploadStopsAtFailure<T>(results: seq<T>, batchSize: nat, accepts: (nat, seq<T>) -> bool, i: nat)
    requires batchSize >= 1 && i <= |results|
    requires UploadFrom(results, batchSize, accepts, i).failedAt.Some?
    ensures var u := UploadFrom(results, batchSize, accepts, i);
      var f := u.failedAt.value;
      && i <= f < |results|
      && !accepts(f, BatchAt(results, batchSize, f))
      && u.committed == results[i..f]
      && |u.attempted| >= 1 && u.attempted[|u.attempted| - 1] == f
    decreases |results| - i
  {
    var batch := BatchAt(results, batchSize, i);
    if accepts(i, batch) {
      var next := Min(i + batchSize, |results|);
      UploadStopsAtFailure(results, batchSize, accepts, next);
      var f := UploadFrom(results, batchSize, accepts, next).failedAt.value;
      assert results[i..f] == results[i..next] + results[next..f];
    }
  }

  /** The database accepts the batch at every one of `offsets`. */
  predicate AllAccepted<T>(results: seq<T>, batchSize: nat, accepts: (nat, seq<T>) -> bool, offsets: seq<nat>)
    requires forall k :: 0 <= k < |offsets| ==> offsets[k] <= |results|
  {
    forall k :: 0 <= k < |offsets| ==> accepts(offsets[k], BatchAt(results, batchSize, offsets[k]))
  }

  /** The upload fails exactly when the database rejects one of the batches. */
  lemma {:induction false} UploadFailsIff<T>(results: seq<T>, batchSize: nat, accepts: (nat, seq<T>) -> bool, i: nat)
    requires batchSize >= 1 && i <= |results|
    ensures UploadFrom(results, batchSize, accepts, i).failedAt == None
      <==> AllAccepted(results, batchSize, accepts, Offsets(|results|, batchSize, i))
    decreases |results| - i
  {
    if i < |results| {
      var next := Min(i + batchSize, |results|);
      var offs := Offsets(|results|, batchSize, i);
      var restOffs := Offsets(|results|, batchSize, next);
      UploadFailsIff(results, batchSize, accepts, next);
      assert offs == [i] + restOffs;
      if accepts(i, BatchAt(results, batchSize, i)) {
        assert UploadFrom(results, batchSize, accepts, i).failedAt
          == UploadFrom(results, batchSize, accepts, next).failedAt;
        AcceptedCons(results, batchSize, accepts, i, restOffs);
      } else {
        assert offs[0] == i;
      }
    }
  }

  lemma AcceptedCons<T>(results: seq<T>, batchSize: nat, accepts: (nat, seq<T>) -> bool, i: nat, offsets: seq<nat>)
    requires i <= |results| && accepts(i, BatchAt(results, batchSize, i))
    requires forall k :: 0 <= k < |offsets| ==> offsets[k] <= |results|
    ensures AllAccepted(results, batchSize, accepts, [i] + offsets) <==> AllAccepted(results, batchSize, accepts, offsets)
  {
    var all := [i] + offsets;
    if AllAccepted(results, batchSize, accepts, all) {
      forall k | 0 <= k < |offsets| ensures accepts(offsets[k], BatchAt(results, batchSize, offsets[k])) {
        assert all[k + 1] == offsets[k];
      }
    }
  }

  /** When the whole upload fails, the rejected batch is the `n`-th one sent
      and starts at offset `(n - 1) * batchSize`; the database holds exactly
      the records before it. */
  lemma UploadFailure<T>(results: seq<T>, batchSize: nat, accepts: (nat, seq<T>) -> bool)
    requires batchSize >= 1
    requires UploadInBatches(results, batchSize, accepts).failedAt.Some?
    ensures var u := UploadInBatches(results, batchSize, accepts);
      var f := u.failedAt.value;
      && |u.attempted| >= 1 && f == (|u.attempted| - 1) * batchSize
      && f < |results| && !accepts(f, BatchAt(results, batchSize, f))
      && u.committed == results[..f]
  {
    var u := UploadInBatches(results, batchSize, accepts);
    UploadStopsAtFailure(results, batchSize, accepts, 0);
    UploadAttempts(results, batchSize, accepts, 0);
    var k := |u.attempted| - 1;
    OffsetsAreMultiples(|results|, batchSize, 0, k);
    assert u.attempted[k] == Offsets(|results|, batchSize, 0)[k];
    assert results[0..u.failedAt.value] == results[..u.failedAt.value];
  }
}

=== FILE: chunker.dfy ===
/** The text chunker of the ingestion handler (`splitTextIntoChunks`): a
    cursor walks the text in windows of at most `maxLength` characters, a
    window that stops short of the end is pulled back to the last space inside
    it, NUL characters are stripped from every slice, and the slices are
    numbered from 1. */
module Chunker {
  import opened Wrappers
  import opened JsText

  /** The window size the handler passes for extracted PDF text. */
  const DefaultMaxLength: nat := 20000

  datatype Chunk = Chunk(order: nat, content: string)

  /** Chunks numbered consecutively from `first`. */
  predicate NumberedFrom(chunks: seq<Chunk>, first: nat) {
    forall i :: 0 <= i < |chunks| ==> chunks[i].order == first + i
  }

  /** Every chunk fits a window of `maxLength` and holds no NUL character. */
  predicate AllFit(chunks: seq<Chunk>, maxLength: nat) {
    forall i :: 0 <= i < |chunks| ==> |chunks[i].content| <= maxLength && NUL !in chunks[i].content
  }

  /** The text of the chunks, in order. */
  function Contents(chunks: seq<Chunk>): string
  {
    FlatMap((c: Chunk) => c.content, chunks)
  }

  lemma ContentsAppend(a: seq<Chunk>, b: seq<Chunk>)
    ensures Contents(a + b) == Contents(a) + Contents(b)
  {
    FlatMapAppend((c: Chunk) => c.content, a, b);
  }

  /** The end (exclusive) of the chunk that begins at `start`, which is where
      the next chunk begins. */
  function CutAt(text: string, maxLength: nat, start: nat): (end: nat)
    requires maxLength >= 1 && start < |text|
    ensures start < end <= start + maxLength
  {
    var end := start + maxLength;
    if end < |text| then
      var lastSpace := LastIndexOf(text, ' ', end);
      if lastSpace > start then lastSpace else end
    else end
  }

  /** A window reaching the end of the text is never pulled back; otherwise
      the cut moves back to the last space at or before `start + maxLength`,
      provided that space lies after `start`, and stays put when there is none. */
  lemma CutAtSpaces(text: string, maxLength: nat, start: nat)
    requires maxLength >= 1 && start < |text|
    ensures var end := CutAt(text, maxLength, start);
      && (start + maxLength >= |text| ==> end == start + maxLength)
      && (end < start + maxLength ==> end < |text| && text[end] == ' ')
      && (start + maxLength < |text| ==>
            forall j :: end < j <= start + maxLength ==> text[j] != ' ')
      && (start + maxLength < |text| && end == start + maxLength && text[end] != ' ' ==>
            forall j :: start < j <= start + maxLength ==> text[j] != ' ')
  {
  }

  /** The text of the chunk that spans `[start, end)`: the slice, cut short by
      the end of the text, with its NUL characters removed. */
  function Slice(text: string, start: nat, end: nat): string
    requires start <= |text| && start <= end
  {
    RemoveNul(text[start..Min(end, |text|)])
  }

  /** The chunks of `text` from the cursor `start` on, numbered from `order`. */
  function ChunksFrom(text: string, maxLength: nat, start: nat, order: nat): seq<Chunk>
    requires maxLength >= 1
    decreases |text| - start
  {
    if start >= |text| then []
    else
      var end := CutAt(text, maxLength, start);
      [Chunk(order, Slice(text, start, end))]
        + ChunksFrom(text, maxLength, end, order + 1)
  }

  function Chunks(text: string, maxLength: nat): seq<Chunk>
    requires maxLength >= 1
  {
    ChunksFrom(text, maxLength, 0, 1)
  }

  /** The cursor positions the chunker visits from `start` on: the start of
      every chunk, then the position where the loop stops. */
  function CutsFrom(text: string, maxLength: nat, start: nat): seq<nat>
    requires maxLength >= 1
    decreases |text| - start
  {
    if start >= |text| then [start]
    else [start] + CutsFrom(text, maxLength, CutAt(text, maxLength, start))
  }

  /** `cuts` are the cursor positions that produced `chunks`: chunk `i` is
      the NUL-free text between cut `i` and cut `i + 1`. */
  predicate SplitAt(text: string, maxLength: nat, chunks: seq<Chunk>, cuts: seq<nat>)
    requires maxLength >= 1
  {
    && |cuts| == |chunks| + 1
    && (forall i :: 0 <= i < |chunks| ==>
          && cuts[i] < |text| && cuts[i + 1] == CutAt(text, maxLength, cuts[i])
          && chunks[i].content == Slice(text, cuts[i], cuts[i + 1]))
  }

  lemma {:induction false} ChunksBetweenCuts(text: string, maxLength: nat, start: nat, order: nat)
    requires maxLength >= 1
    ensures CutsFrom(text, maxLength, start)[0] == start
    ensures SplitAt(text, maxLength, ChunksFrom(text, maxLength, start, order), CutsFrom(text, maxLength, start))
    decreases |text| - start
  {
    if start < |text| {
      var end := CutAt(text, maxLength, start);
      ChunksBetweenCuts(text, maxLength, end, order + 1);
      var cs := ChunksFrom(text, maxLength, start, order);
      var bs := CutsFrom(text, maxLength, start);
      var rest := ChunksFrom(text, maxLength, end, order + 1);
      var restCuts := CutsFrom(text, maxLength, end);
      assert cs == [Chunk(order, Slice(text, start, end))] + rest;
      assert bs == [start] + restCuts;
      forall i | 0 < i < |cs|
        ensures && bs[i] < |text| && bs[i + 1] == CutAt(text, maxLength, bs[i])
                && cs[i].content == Slice(text, bs[i], bs[i + 1])
      {
        assert cs[i] == rest[i - 1] && bs[i] == restCuts[i - 1] && bs[i + 1] == restCuts[i];
      }
    }
  }

  /** The i-th chunk (counting from 0) carries order `order + i`. */
  lemma {:induction false} ChunkOrders(text: string, maxLength: nat, start: nat, order: nat)
    requires maxLength >= 1
    ensures NumberedFrom(ChunksFrom(text, maxLength, start, order), order)
    decreases |text| - start
  {
    if start < |text| {
      var end := CutAt(text, maxLength, start);
      ChunkOrders(text, maxLength, end, order + 1);
      var cs := ChunksFrom(text, maxLength, start, order);
      var rest := ChunksFrom(text, maxLength, end, order + 1);
      assert cs == [Chunk(order, Slice(text, start, end))] + rest;
      forall i | 0 < i < |cs| ensures cs[i].order == order + i {
        assert cs[i] == rest[i - 1];
        assert rest[i - 1].order == order + 1 + (i - 1);
      }
    }
  }

  /** Every chunk fits the window and holds no NUL character. */
  lemma {:induction false} ChunksBounded(text: string, maxLength: nat, start: nat, order: nat)
    requires maxLength >= 1
    ensures AllFit(ChunksFrom(text, maxLength, start, order), maxLength)
    decreases |text| - start
  {
    if start < |text| {
      var end := CutAt(text, maxLength, start);
      ChunksBounded(text, maxLength, end, order + 1);
      var cs := ChunksFrom(text, maxLength, start, order);
      var rest := ChunksFrom(text, maxLength, end, order + 1);
      forall i | 0 < i < |cs| ensures |cs[i].content| <= maxLength && NUL !in cs[i].content {
        assert cs[i] == rest[i - 1];
      }
    }
  }

  /** Nothing but NUL characters is lost: the chunks put back together are the
      text from the cursor on with its NULs removed (a space at a cut begins
      the next chunk). */
  lemma {:induction false} ChunksConcat(text: string, maxLength: nat, start: nat, order: nat)
    requires maxLength >= 1 && start <= |text|
    ensures Contents(ChunksFrom(text, maxLength, start, order)) == RemoveNul(text[start..])
    decreases |text| - start
  {
    if start < |text| {
      var end := CutAt(text, maxLength, start);
      var rest := ChunksFrom(text, maxLength, end, order + 1);
      ChunksStep(text, maxLength, start, order);
      SliceThenRest(text, start, end);
      if end < |text| {
        ChunksConcat(text, maxLength, end, order + 1);
      } else {
        assert rest == [];
      }
    }
  }

  /** One turn of the loop: the chunk at the cursor, then the rest. */
  lemma ChunksStep(text: string, maxLength: nat, start: nat, order: nat)
    requires maxLength >= 1 && start < |text|
    ensures Contents(ChunksFrom(text, maxLength, start, order))
      == Slice(text, start, CutAt(text, maxLength, start))
         + Contents(ChunksFrom(text, maxLength, CutAt(text, maxLength, start), order + 1))
  {
    var cs := ChunksFrom(text, maxLength, start, order);
    assert cs[1..] == ChunksFrom(text, maxLength, CutAt(text, maxLength, start), order + 1);
  }

  /** The text from `start` on is the chunk's slice followed by the text after it. */
  lemma SliceThenRest(text: string, start: nat, end: nat)
    requires start <= |text| && start <= end
    ensures RemoveNul(text[start..]) == Slice(text, start, end) + RemoveNul(text[Min(end, |text|)..])
  {
    var mid := Min(end, |text|);
    assert text[start..] == text[start..mid] + text[mid..];
    RemoveNulAppend(text[start..mid], text[mid..]);
  }

  /** The chunker emits at most one chunk per character. */
  lemma {:induction false} ChunkCountBound(text: string, maxLength: nat, start: nat, order: nat)
    requires maxLength >= 1 && start <= |text|
    ensures |ChunksFrom(text, maxLength, start, order)| <= |text| - start
    decreases |text| - start
  {
    if start < |text| {
      var end := CutAt(text, maxLength, start);
      if end < |text| {
        ChunkCountBound(text, maxLength, end, order + 1);
      }
    }
  }

  /** A text that fits the window is one chunk; the empty text is none. */
  lemma ShortTextIsOneChunk(text: string, maxLength: nat)
    requires maxLength >= 1 && |text| <= maxLength
    ensures |text| == 0 ==> Chunks(text, maxLength) == []
    ensures |text| > 0 ==>
      |Chunks(text, maxLength)| == 1 && Chunks(text, maxLength)[0] == Chunk(1, RemoveNul(text))
  {
    if |text| > 0 {
      var end := CutAt(text, maxLength, 0);
      assert end >= |text|;
      assert ChunksFrom(text, maxLength, end, 2) == [];
      assert text[0..Min(end, |text|)] == text;
      assert Slice(text, 0, end) == RemoveNul(text);
    }
  }

  /** Chunking a chunk again with the same window gives it back unchanged. */
  lemma RechunkIsIdentity(content: string, maxLength: nat)
    requires maxLength >= 1 && 1 <= |content| <= maxLength && NUL !in content
    ensures Chunks(content, maxLength) == [Chunk(1, content)]
  {
    ShortTextIsOneChunk(content, maxLength);
  }

  /** `cut` ends the window that begins at `prev` inside the text: exactly at
      the window's end or on a space, with no later space in that window. */
  predicate GoodCut(text: string, maxLength: nat, prev: nat, cut: nat) {
    && prev < cut <= prev + maxLength
    && cut < |text|
    && (cut == prev + maxLength || text[cut] == ' ')
    && (forall j :: cut < j <= prev + maxLength && j < |text| ==> text[j] != ' ')
  }

  /** Every interior cut is a good cut, and a cut on a space leaves that space
      at the head of the next chunk. */
  predicate CutsRespectWords(text: string, maxLength: nat, chunks: seq<Chunk>, cuts: seq<nat>)
    requires |cuts| == |chunks| + 1
  {
    forall i :: 1 <= i < |chunks| ==>
      && GoodCut(text, maxLength, cuts[i - 1], cuts[i])
      && (text[cuts[i]] == ' ' ==> |chunks[i].content| > 0 && chunks[i].content[0] == ' ')
  }

  lemma CutIsGood(text: string, maxLength: nat, prev: nat)
    requires maxLength >= 1 && prev < |text| && CutAt(text, maxLength, prev) < |text|
    ensures GoodCut(text, maxLength, prev, CutAt(text, maxLength, prev))
  {
    CutAtSpaces(text, maxLength, prev);
  }

  lemma SpaceHeadsSlice(text: string, start: nat, end: nat)
    requires start < end && start < |text| && text[start] == ' '
    ensures |Slice(text, start, end)| > 0 && Slice(text, start, end)[0] == ' '
  {
    var slice := text[start..Min(end, |text|)];
    assert slice == [' '] + slice[1..];
  }

  lemma InteriorCuts(text: string, maxLength: nat)
    requires maxLength >= 1
    ensures |CutsFrom(text, maxLength, 0)| == |Chunks(text, maxLength)| + 1
    ensures CutsRespectWords(text, maxLength, Chunks(text, maxLength), CutsFrom(text, maxLength, 0))
  {
    var cs := Chunks(text, maxLength);
    var bs := CutsFrom(text, maxLength, 0);
    ChunksBetweenCuts(text, maxLength, 0, 1);
    forall i | 1 <= i < |cs|
      ensures && GoodCut(text, maxLength, bs[i - 1], bs[i])
              && (text[bs[i]] == ' ' ==> |cs[i].content| > 0 && cs[i].content[0] == ' ')
    {
      CutIsGood(text, maxLength, bs[i - 1]);
      if text[bs[i]] == ' ' {
        SpaceHeadsSlice(text, bs[i], bs[i + 1]);
      }
    }
  }

  /** The recursive definition, one step at a time. */
  lemma ChunksUnfold(text: string, maxLength: nat, start: nat, order: nat)
    requires maxLength >= 1 && start < |text|
    ensures ChunksFrom(text, maxLength, start, order)
      == [Chunk(order, Slice(text, start, CutAt(text, maxLength, start)))]
         + ChunksFrom(text, maxLength, CutAt(text, maxLength, start), order + 1)
  {
  }

  /** The shape of the chunk list of the whole text: no chunks exactly for
      empty text, numbered from 1, each fitting the window without NULs. */
  lemma ChunksProperties(text: string, maxLength: nat)
    requires maxLength >= 1
    ensures Chunks(text, maxLength) == [] <==> |text| == 0
    ensures NumberedFrom(Chunks(text, maxLength), 1)
    ensures AllFit(Chunks(text, maxLength), maxLength)
  {
    ChunkOrders(text, maxLength, 0, 1);
    ChunksBounded(text, maxLength, 0, 1);
    if |text| > 0 {
      ChunksUnfold(text, maxLength, 0, 1);
    }
  }

  /** The chunks of the whole text spell it out without its NUL characters. */
  lemma ChunksSpellText(text: string, maxLength: nat)
    requires maxLength >= 1
    ensures Contents(Chunks(text, maxLength)) == RemoveNul(text)
  {
    ChunksConcat(text, maxLength, 0, 1);
    assert text[0..] == text;
  }

  /** Everything the chunk list of the whole text promises. */
  lemma ChunksSpec(text: string, maxLength: nat)
    requires maxLength >= 1
    ensures Chunks(text, maxLength) == [] <==> |text| == 0
    ensures NumberedFrom(Chunks(text, maxLength), 1)
    ensures AllFit(Chunks(text, maxLength), maxLength)
    ensures Contents(Chunks(text, maxLength)) == RemoveNul(text)
  {
    ChunksProperties(text, maxLength);
    ChunksSpellText(text, maxLength);
  }

  /** One turn of the source's loop: the chunks pushed so far followed by the
      chunks still to come stay the whole chunk list. */
  lemma ChunkLoopStep(text: string, maxLength: nat, start: nat, order: nat, done: seq<Chunk>)
    requires maxLength >= 1 && start < |text|
    requires done + ChunksFrom(text, maxLength, start, order) == Chunks(text, maxLength)
    ensures var end := CutAt(text, maxLength, start);
      (done + [Chunk(order, Slice(text, start, end))]) + ChunksFrom(text, maxLength, end, order + 1)
        == Chunks(text, maxLength)
  {
    var end := CutAt(text, maxLength, start);
    var head := [Chunk(order, Slice(text, start, end))];
    var later := ChunksFrom(text, maxLength, end, order + 1);
    ChunksUnfold(text, maxLength, start, order);
    assert done + (head + later) == (done + head) + later;
  }

  /** `splitTextIntoChunks(text, maxLength)`, as the source's loop. */
  method SplitTextIntoChunks(text: string, maxLength: nat) returns (chunks: seq<Chunk>)
    requires maxLength >= 1
    ensures chunks == Chunks(text, maxLength)
    ensures chunks == [] <==> |text| == 0
    ensures NumberedFrom(chunks, 1)
    ensures AllFit(chunks, maxLength)
    ensures Contents(chunks) == RemoveNul(text)
  {
    chunks := [];
    var start: nat := 0;
    var order: nat := 1;
    while start < |text|
      invariant chunks + ChunksFrom(text, maxLength, start, order) == Chunks(text, maxLength)
      invariant order == |chunks| + 1
      decreases |text| - start
    {
      var end := CutAt(text, maxLength, start);
      ChunkLoopStep(text, maxLength, start, order, chunks);
      chunks := chunks + [Chunk(order, Slice(text, start, end))];
      start := end;
      order := order + 1;
    }
    assert ChunksFrom(text, maxLength, start, order) == [];
    assert chunks + [] == chunks;
    ChunksSpec(text, maxLength);
  }

}

=== FILE: compare.dfy ===
/** The server and the harvesting script read the same arXiv feed through
    different XML converters, and this module relates what the two make of
    one entry.

    The server's converter (xml2js with its default options) turns every
    child element into a list of its occurrences and keeps an element's text
    exactly as it stands, surrounding whitespace included; an element without
    text gives the empty string. The script's converter (xmltodict) gives a
    child that occurs once as the item itself and one that occurs several
    times as a list, and strips an element's text with Python's `str.strip`;
    text that strips to nothing becomes `None`.

    An entry is described here as the XML holds it: the text of each leaf
    element that occurs once, or `None` where the element is absent, and the
    list of `author` elements. Both converters are fed the same character
    data by the XML parser. */
module Compare {
  import opened Wrappers
  import opened JsText
  import Arxiv
  import ArxivPy
  import Ingest

  // ---------------------------------------------------------------------------
  // Python's `str.strip`
  // ---------------------------------------------------------------------------

  /** The characters Python's `str.isspace` accepts, which `str.strip` with
      no argument removes. */
  predicate IsPyWhitespace(c: char) {
    || c == '\t' || c == '\n' || c == '\U{B}' || c == '\U{C}' || c == '\r'
    || ('\U{1C}' <= c <= '\U{1F}')
    || c == ' ' || c == '\U{85}' || c == '\U{A0}' || c == '\U{1680}'
    || ('\U{2000}' <= c <= '\U{200A}')
    || c == '\U{2028}' || c == '\U{2029}' || c == '\U{202F}' || c == '\U{205F}'
    || c == '\U{3000}'
  }

  /** The end of the run of Python whitespace starting at `i`. */
  function PyWhitespaceEnd(s: string, i: nat): (n: nat)
    requires i <= |s|
    ensures i <= n <= |s| && forall k :: i <= k < n ==> IsPyWhitespace(s[k])
    ensures n == |s| || !IsPyWhitespace(s[n])
    decreases |s| - i
  {
    if i < |s| && IsPyWhitespace(s[i]) then PyWhitespaceEnd(s, i + 1) else i
  }

  /** The start of the run of Python whitespace ending at `j`, looking no
      further back than `lo`. */
  function PyWhitespaceStart(s: string, lo: nat, j: nat): (n: nat)
    requires lo <= j <= |s|
    ensures lo <= n <= j && forall k :: n <= k < j ==> IsPyWhitespace(s[k])
    ensures n == lo || !IsPyWhitespace(s[n - 1])
    decreases j
  {
    if lo < j && IsPyWhitespace(s[j - 1]) then PyWhitespaceStart(s, lo, j - 1) else j
  }

  /** `str.strip()`: the part of `s` between its leading and its trailing
      Python whitespace. */
  function PyStrip(s: string): (r: string)
    ensures |r| <= |s|
    ensures r == [] || (!IsPyWhitespace(r[0]) && !IsPyWhitespace(r[|r| - 1]))
  {
    var i := PyWhitespaceEnd(s, 0);
    s[i..PyWhitespaceStart(s, i, |s|)]
  }

  /** The two notions of whitespace disagree on exactly six characters:
      four control characters, NEXT LINE and the byte-order mark. */
  lemma WhitespaceSetsDiffer(c: char)
    ensures IsWhitespace(c) != IsPyWhitespace(c) <==>
      c == '\U{1C}' || c == '\U{1D}' || c == '\U{1E}' || c == '\U{1F}' || c == '\U{85}' || c == '\U{FEFF}'
  {
  }

  /** No character of `s` is one the two notions of whitespace disagree on. */
  predicate SameWhitespace(s: string) {
    forall k :: 0 <= k < |s| ==> (IsWhitespace(s[k]) <==> IsPyWhitespace(s[k]))
  }

  lemma {:induction false} WhitespaceEndsAgree(s: string, i: nat)
    requires SameWhitespace(s) && i <= |s|
    ensures PyWhitespaceEnd(s, i) == WhitespaceEnd(s, i)
    decreases |s| - i
  {
    if i < |s| && IsWhitespace(s[i]) {
      WhitespaceEndsAgree(s, i + 1);
    }
  }

  lemma {:induction false} WhitespaceStartsAgree(s: string, lo: nat, j: nat)
    requires SameWhitespace(s) && lo <= j <= |s|
    ensures PyWhitespaceStart(s, lo, j) == WhitespaceStart(s, lo, j)
    decreases j
  {
    if lo < j && IsWhitespace(s[j - 1]) {
      WhitespaceStartsAgree(s, lo, j - 1);
    }
  }

  /** Where no character is one the two notions disagree on, Python's strip
      and JavaScript's trim give the same text. */
  lemma StripAgreesWithTrim(s: string)
    requires SameWhitespace(s)
    ensures PyStrip(s) == Trim(s)
  {
    WhitespaceEndsAgree(s, 0);
    WhitespaceStartsAgree(s, WhitespaceEnd(s, 0), |s|);
  }

  /** A leading NEXT LINE character is kept by the trim and removed by the
      strip. */
  lemma NextLineSplitsStripAndTrim()
    ensures Trim("\U{85}Ada") == "\U{85}Ada"
    ensures PyStrip("\U{85}Ada") == "Ada"
  {
    var s := "\U{85}Ada";
    TrimIdentityIff(s);
    assert PyWhitespaceEnd(s, 1) == 1;
    assert PyWhitespaceStart(s, 1, 4) == 4;
    assert s[1..4] == "Ada";
  }

  // ---------------------------------------------------------------------------
  // one entry as the XML holds it, and as each converter delivers it
  // ---------------------------------------------------------------------------

  /** An `author` element: the text of its `name` child, `None` when it has
      none. */
  datatype XmlAuthor = XmlAuthor(name: Option<string>)

  /** An `entry` element: the text of its `title`, `id` and `published`
      children (`None` when absent) and its `author` children in order. */
  datatype XmlEntry = XmlEntry(
    title: Option<string>,
    authors: seq<XmlAuthor>,
    id: Option<string>,
    published: Option<string>)

  /** Every author element has a `name` child, and there is at least one. */
  predicate Named(authors: seq<XmlAuthor>) {
    |authors| > 0 && forall k :: 0 <= k < |authors| ==> authors[k].name.Some?
  }

  /** Every element both sides read is there, and every author is named. */
  predicate Complete(x: XmlEntry) {
    x.title.Some? && x.id.Some? && x.published.Some? && Named(x.authors)
  }

  /** The JSON value the script writes for stripped text: `null` when
      nothing is left. */
  function NullIfEmpty(s: string): (v: Option<string>)
    ensures v.None? <==> s == []
    ensures v.Some? ==> v.value == s
  {
    if s == [] then None else Some(s)
  }

  /** An element that occurs at most once, as the server's converter gives
      it: the list of its occurrences, its text kept as it stands. */
  function JsLeaf(text: Option<string>): seq<string>
  {
    if text.Some? then [text.value] else []
  }

  function AsJsAuthor(a: XmlAuthor): Arxiv.JsAuthor
  {
    Arxiv.JsAuthor(JsLeaf(a.name))
  }

  /** The `author` children as the server's converter gives them: always a
      list, and no key at all when there is none. */
  function AsJsAuthors(authors: seq<XmlAuthor>): Multi<Arxiv.JsAuthor>
  {
    if |authors| == 0 then Absent
    else Many(seq(|authors|, k requires 0 <= k < |authors| => AsJsAuthor(authors[k])))
  }

  function AsJsEntry(x: XmlEntry): Arxiv.JsEntry
  {
    Arxiv.JsEntry(JsLeaf(x.title), AsJsAuthors(x.authors), JsLeaf(x.id), JsLeaf(x.published))
  }

  /** An element that occurs at most once, as the script's converter gives
      it: no key when absent, otherwise its stripped text, or `None` when the
      strip leaves nothing. */
  function PyLeaf(text: Option<string>): ArxivPy.PyValue
  {
    match text
    case None => ArxivPy.Missing
    case Some(t) => if PyStrip(t) == [] then ArxivPy.Null else ArxivPy.Text(PyStrip(t))
  }

  function AsPyAuthor(a: XmlAuthor): ArxivPy.PyAuthor
  {
    ArxivPy.PyAuthor(PyLeaf(a.name))
  }

  /** The `author` children as the script's converter gives them: no key,
      a single item, or a list of two or more. */
  function AsPyAuthors(authors: seq<XmlAuthor>): Multi<ArxivPy.PyAuthor>
  {
    if |authors| == 0 then Absent
    else if |authors| == 1 then One(AsPyAuthor(authors[0]))
    else Many(seq(|authors|, k requires 0 <= k < |authors| => AsPyAuthor(authors[k])))
  }

  function AsPyEntry(x: XmlEntry): ArxivPy.PyEntry
  {
    ArxivPy.PyEntry(PyLeaf(x.title), AsPyAuthors(x.authors), PyLeaf(x.id), PyLeaf(x.published))
  }

  /** The JSON value the script keeps for a present element. */
  lemma PyLeafValue(t: string)
    ensures !PyLeaf(Some(t)).Missing?
    ensures ArxivPy.JsonValue(PyLeaf(Some(t))) == NullIfEmpty(PyStrip(t))
  {
  }

  // ---------------------------------------------------------------------------
  // the two sides compared
  // ---------------------------------------------------------------------------

  /** The server's author names: each name trimmed, or a throw. */
  lemma ServerAuthors(authors: seq<XmlAuthor>)
    ensures Arxiv.EntryAuthors(AsJsAuthors(authors)).Some? <==> Named(authors)
    ensures Arxiv.EntryAuthors(AsJsAuthors(authors)).Some? ==>
      var server := Arxiv.EntryAuthors(AsJsAuthors(authors)).value;
      |server| == |authors| && forall k :: 0 <= k < |authors| ==> server[k] == Trim(authors[k].name.value)
  {
    if |authors| > 0 {
      var js := seq(|authors|, k requires 0 <= k < |authors| => AsJsAuthor(authors[k]));
      assert forall k :: 0 <= k < |authors| ==> (|js[k].name| > 0 <==> authors[k].name.Some?);
    }
  }

  /** The script's author names: each name stripped, `null` when nothing is
      left, or a raise. */
  lemma ScriptAuthors(authors: seq<XmlAuthor>)
    ensures ArxivPy.AuthorNames(AsPyAuthors(authors)).Some? <==> Named(authors)
    ensures ArxivPy.AuthorNames(AsPyAuthors(authors)).Some? ==>
      var script := ArxivPy.AuthorNames(AsPyAuthors(authors)).value;
      |script| == |authors| && forall k :: 0 <= k < |authors| ==> script[k] == NullIfEmpty(PyStrip(authors[k].name.value))
  {
    if |authors| > 0 {
      var py := seq(|authors|, k requires 0 <= k < |authors| => AsPyAuthor(authors[k]));
      assert ArxivPy.AuthorNames(AsPyAuthors(authors)) == ArxivPy.NamesOf(py) by {
        if |authors| == 1 {
          assert py == [AsPyAuthor(authors[0])];
        }
      }
      assert forall k :: 0 <= k < |authors| ==> (!py[k].name.Missing? <==> authors[k].name.Some?);
      forall k | 0 <= k < |authors| && authors[k].name.Some?
        ensures ArxivPy.JsonValue(py[k].name) == NullIfEmpty(PyStrip(authors[k].name.value))
      {
        PyLeafValue(authors[k].name.value);
      }
    }
  }

  /** The author lists: both sides fail on the same input (no author, or an
      author without a name), and otherwise the server keeps each name
      trimmed while the script keeps it stripped, `null` when the strip
      leaves nothing. On a name without the characters the two notions of
      whitespace disagree on, the script's value is the server's, with `null`
      for the empty name. */
  lemma AuthorsAgree(authors: seq<XmlAuthor>)
    ensures Arxiv.EntryAuthors(AsJsAuthors(authors)).Some? <==> Named(authors)
    ensures ArxivPy.AuthorNames(AsPyAuthors(authors)).Some? <==> Named(authors)
    ensures Arxiv.EntryAuthors(AsJsAuthors(authors)).Some? ==>
      var server := Arxiv.EntryAuthors(AsJsAuthors(authors)).value;
      var script := ArxivPy.AuthorNames(AsPyAuthors(authors)).value;
      && |server| == |authors| && |script| == |authors|
      && forall k :: 0 <= k < |authors| ==>
           && server[k] == Trim(authors[k].name.value)
           && script[k] == NullIfEmpty(PyStrip(authors[k].name.value))
           && (SameWhitespace(authors[k].name.value) ==> script[k] == NullIfEmpty(server[k]))
  {
    ServerAuthors(authors);
    ScriptAuthors(authors);
    forall k | 0 <= k < |authors| && authors[k].name.Some? && SameWhitespace(authors[k].name.value)
      ensures PyStrip(authors[k].name.value) == Trim(authors[k].name.value)
    {
      StripAgreesWithTrim(authors[k].name.value);
    }
  }

  /** One entry: the server keeps it exactly when it is complete and its date
      converts, and the script exactly when it is complete and its id is not
      blank. The kept fields are the raw text trimmed on the server and
      stripped by the script. When the title and id hold none of the
      characters the two notions of whitespace disagree on, the script's
      title is the server's (`null` for the empty title), the links agree, and
      the two PDF addresses agree exactly when `abs` occurs at most once in
      the link. */
  lemma EntriesAgree(x: XmlEntry, toIso: string -> Option<string>, pdf: string -> Option<string>)
    ensures Arxiv.NormalizeEntry(AsJsEntry(x), toIso).Some? <==>
      Complete(x) && toIso(x.published.value).Some?
    ensures ArxivPy.PaperOf(AsPyEntry(x), pdf).Some? <==>
      Complete(x) && PyStrip(x.id.value) != []
    ensures Arxiv.NormalizeEntry(AsJsEntry(x), toIso).Some? ==>
      var server := Arxiv.NormalizeEntry(AsJsEntry(x), toIso).value;
      && server.title == Trim(x.title.value)
      && server.link == Trim(x.id.value)
      && server.date == toIso(x.published.value).value
      && server.pdfUrl == Arxiv.PdfUrl(x.id.value)
      && server.authors == Arxiv.EntryAuthors(AsJsAuthors(x.authors)).value
    ensures ArxivPy.PaperOf(AsPyEntry(x), pdf).Some? ==>
      var script := ArxivPy.PaperOf(AsPyEntry(x), pdf).value;
      && script.title == NullIfEmpty(PyStrip(x.title.value))
      && script.link == PyStrip(x.id.value)
      && script.date == NullIfEmpty(PyStrip(x.published.value))
      && script.authors == ArxivPy.AuthorNames(AsPyAuthors(x.authors)).value
      && script.content == ArxivPy.DownloadAndParsePdf(ArxivPy.PdfUrl(PyStrip(x.id.value)), pdf)
    ensures
      && Arxiv.NormalizeEntry(AsJsEntry(x), toIso).Some? && ArxivPy.PaperOf(AsPyEntry(x), pdf).Some?
      && SameWhitespace(x.title.value) && SameWhitespace(x.id.value) ==>
      var server := Arxiv.NormalizeEntry(AsJsEntry(x), toIso).value;
      var script := ArxivPy.PaperOf(AsPyEntry(x), pdf).value;
      && script.title == NullIfEmpty(server.title)
      && script.link == server.link
      && (server.pdfUrl == ArxivPy.PdfUrl(script.link) <==> AtMostOnce(script.link, "abs"))
  {
    AuthorsAgree(x.authors);
    if x.title.Some? {
      PyLeafValue(x.title.value);
    }
    if x.published.Some? {
      PyLeafValue(x.published.value);
    }
    if && Arxiv.NormalizeEntry(AsJsEntry(x), toIso).Some? && ArxivPy.PaperOf(AsPyEntry(x), pdf).Some?
       && SameWhitespace(x.title.value) && SameWhitespace(x.id.value)
    {
      var id := x.id.value;
      StripAgreesWithTrim(x.title.value);
      StripAgreesWithTrim(id);
      Arxiv.PdfUrlOfTrimmedId(id);
      TrimIdempotent(id);
      ArxivPy.PdfUrlsAgreeIff(Trim(id));
    }
  }

  /** A complete entry whose PDF cannot be fetched from either address is
      kept by the script with empty text, and contributes no record on the
      server. */
  lemma FailedPdfScriptKeepsServerSkips(x: XmlEntry, toIso: string -> Option<string>, pdf: string -> Option<string>)
    requires Complete(x) && toIso(x.published.value).Some? && PyStrip(x.id.value) != []
    requires pdf(Arxiv.PdfUrl(x.id.value)).None? && pdf(ArxivPy.PdfUrl(PyStrip(x.id.value))).None?
    ensures ArxivPy.PaperOf(AsPyEntry(x), pdf).Some? && ArxivPy.PaperOf(AsPyEntry(x), pdf).value.content == []
    ensures Arxiv.NormalizeEntry(AsJsEntry(x), toIso).Some?
    ensures Ingest.PapersRecords([Arxiv.NormalizeEntry(AsJsEntry(x), toIso).value], pdf) == []
  {
    EntriesAgree(x, toIso, pdf);
    Ingest.FailedDownloadSkipsPaper(Arxiv.NormalizeEntry(AsJsEntry(x), toIso).value, pdf);
  }
}

=== FILE: decimal.dfy ===
/** Decimal rendering of non-negative integers, as `Number.prototype.toString()`
    produces it for the chunk order numbers, and the parse that undoes it. */
module Decimal {
  import opened JsText

  function DigitChar(d: nat): (c: char)
    requires d < 10
    ensures IsDigit(c)
  {
    (('0' as int) + d) as char
  }

  function DigitValue(c: char): (d: nat)
    requires IsDigit(c)
    ensures d < 10 && DigitChar(d) == c
  {
    (c as int) - ('0' as int)
  }

  /** `n.toString()`: the shortest decimal numeral for `n`, which starts with
      `0` only when it is the numeral for zero. */
  function NatToDecimal(n: nat): (s: string)
    ensures |s| >= 1 && AllDigits(s)
    ensures s[0] == '0' <==> n == 0
    ensures n < 10 <==> |s| == 1
  {
    if n < 10 then [DigitChar(n)]
    else NatToDecimal(n / 10) + [DigitChar(n % 10)]
  }

  /** The value of a numeral, most significant digit first. */
  function DecimalToNat(s: string): nat
    requires AllDigits(s)
  {
    if |s| == 0 then 0
    else DecimalToNat(s[..|s| - 1]) * 10 + DigitValue(s[|s| - 1])
  }

  /** Reading back the rendered numeral gives the number. */
  lemma {:induction false} DecimalRoundTrip(n: nat)
    ensures DecimalToNat(NatToDecimal(n)) == n
  {
    if n >= 10 {
      var s := NatToDecimal(n);
      assert s[..|s| - 1] == NatToDecimal(n / 10);
      DecimalRoundTrip(n / 10);
    }
  }

  /** Distinct numbers render as distinct numerals. */
  lemma DecimalInjective(m: nat, n: nat)
    requires NatToDecimal(m) == NatToDecimal(n)
    ensures m == n
  {
    DecimalRoundTrip(m);
    DecimalRoundTrip(n);
  }
}

=== FILE: ingest.dfy ===
/** The search handler of the ingestion server (`POST /api/search`): validate
    the query, ask the language model twice for research topics, fetch the
    papers of every topic from arXiv, download each paper's text, cut it into
    numbered chunks, and store one record per chunk in batches. Every outside
    service is a field of `Env`. */
module Ingest {
  import opened Wrappers
  import opened JsText
  import opened Decimal
  import Chunker
  import Topics
  import Arxiv
  import Batching
  import Llm

  /** One row of the `papers` table: a chunk of a paper's text with the
      paper's description and the chunk's number, as a one-element text list. */
  datatype Record = Record(
    title: string,
    authors: seq<string>,
    link: string,
    date: string,
    pdfUrl: string,
    content: string,
    chunkOrder: seq<string>)

  /** The batch size the handler uploads with. */
  const UploadBatchSize: nat := 500

  /** The outside world of one request. */
  datatype Env = Env(
    apiKey: string,
    chat: Llm.ChatRequest -> Option<string>,
    fetch: Arxiv.ArxivQuery -> Option<Arxiv.JsDoc>,
    toIso: string -> Option<string>,
    pdf: string -> Option<string>,
    insert: (nat, seq<Record>) -> bool)

  // ---------------------------------------------------------------------------
  // records of one paper
  // ---------------------------------------------------------------------------

  /** `downloadAndParsePDF(url)`: `pdf` is the download and text extraction,
      `None` where either throws, which yields the empty text. NUL characters
      are removed. */
  function DownloadAndParsePdf(url: string, pdf: string -> Option<string>): (text: string)
    ensures NUL !in text
    ensures pdf(url).None? ==> text == []
    ensures pdf(url).Some? ==> |text| <= |pdf(url).value|
    ensures pdf(url).Some? && NUL !in pdf(url).value ==> text == pdf(url).value
    ensures pdf(url).Some? ==> text == RemoveNul(pdf(url).value)
    ensures pdf(url).Some? ==> multiset(text) == multiset(pdf(url).value)[NUL := 0]
  {
    match pdf(url)
    case None => []
    case Some(t) => RemoveNulCounts(t); RemoveNul(t)
  }

  /** The record of one chunk of `paper`. */
  function RecordOf(paper: Arxiv.Paper, chunk: Chunker.Chunk): Record
  {
    Record(paper.title, paper.authors, paper.link, paper.date, paper.pdfUrl, chunk.content, [NatToDecimal(chunk.order)])
  }

  /** The records of a paper's chunks, in chunk order. */
  function RecordsOf(paper: Arxiv.Paper, chunks: seq<Chunker.Chunk>): (records: seq<Record>)
    ensures |records| == |chunks|
  {
    if |chunks| == 0 then [] else [RecordOf(paper, chunks[0])] + RecordsOf(paper, chunks[1..])
  }

  /** The `k`-th record is the record of the `k`-th chunk. */
  lemma {:induction false} RecordsOfAt(paper: Arxiv.Paper, chunks: seq<Chunker.Chunk>, k: nat)
    requires k < |chunks|
    ensures RecordsOf(paper, chunks)[k] == RecordOf(paper, chunks[k])
    decreases k
  {
    if k > 0 {
      RecordsOfAt(paper, chunks[1..], k - 1);
    }
  }

  /** The texts of the records, in order. */
  function RecordContents(records: seq<Record>): string
  {
    FlatMap((r: Record) => r.content, records)
  }

  lemma {:induction false} RecordContentsOf(paper: Arxiv.Paper, chunks: seq<Chunker.Chunk>)
    ensures RecordContents(RecordsOf(paper, chunks)) == Chunker.Contents(chunks)
    decreases |chunks|
  {
    if |chunks| > 0 {
      RecordContentsOf(paper, chunks[1..]);
    }
  }

  /** The records the handler pushes for a paper whose text is `content`:
      none when the text is empty, otherwise one per chunk of at most 20000
      characters. */
  function PaperRecords(paper: Arxiv.Paper, content: string): (records: seq<Record>)
    ensures content == [] ==> records == []
  {
    if content == [] then []
    else RecordsOf(paper, Chunker.Chunks(content, Chunker.DefaultMaxLength))
  }

  /** Together a paper's records spell its text without the NUL characters,
      and there are records exactly when the text is not empty. */
  lemma PaperRecordsSpellText(paper: Arxiv.Paper, content: string)
    ensures PaperRecords(paper, content) == [] <==> content == []
    ensures RecordContents(PaperRecords(paper, content)) == RemoveNul(content)
  {
    if content != [] {
      var chunks := Chunker.Chunks(content, Chunker.DefaultMaxLength);
      Chunker.ChunksProperties(content, Chunker.DefaultMaxLength);
      Chunker.ChunksSpellText(content, Chunker.DefaultMaxLength);
      RecordContentsOf(paper, chunks);
    }
  }

  /** Downloaded text has no NUL characters, so the records of a paper spell
      all of it. */
  lemma PaperRecordsKeepText(paper: Arxiv.Paper, content: string)
    requires NUL !in content
    ensures RecordContents(PaperRecords(paper, content)) == content
  {
    PaperRecordsSpellText(paper, content);
  }

  /** Every record of a paper carries the paper's description and at most
      20000 characters of its text. */
  lemma PaperRecordsFields(paper: Arxiv.Paper, content: string)
    ensures forall k :: 0 <= k < |PaperRecords(paper, content)| ==>
      var r := PaperRecords(paper, content)[k];
      && r.title == paper.title && r.authors == paper.authors && r.link == paper.link
      && r.date == paper.date && r.pdfUrl == paper.pdfUrl
      && |r.content| <= Chunker.DefaultMaxLength
  {
    var records := PaperRecords(paper, content);
    if content != [] {
      var chunks := Chunker.Chunks(content, Chunker.DefaultMaxLength);
      Chunker.ChunksProperties(content, Chunker.DefaultMaxLength);
      forall k | 0 <= k < |records|
        ensures records[k] == RecordOf(paper, chunks[k])
        ensures |chunks[k].content| <= Chunker.DefaultMaxLength
      {
        RecordsOfAt(paper, chunks, k);
      }
    }
  }

  /** The records of a paper are numbered `"1"`, `"2"`, ... : the `k`-th
      record's one chunk number is the decimal text of `k + 1`, which reads
      back as `k + 1`. */
  lemma PaperRecordsNumbered(paper: Arxiv.Paper, content: string)
    ensures forall k :: 0 <= k < |PaperRecords(paper, content)| ==>
      && PaperRecords(paper, content)[k].chunkOrder == [NatToDecimal(k + 1)]
      && AllDigits(PaperRecords(paper, content)[k].chunkOrder[0])
      && DecimalToNat(PaperRecords(paper, content)[k].chunkOrder[0]) == k + 1
  {
    var records := PaperRecords(paper, content);
    if content != [] {
      var chunks := Chunker.Chunks(content, Chunker.DefaultMaxLength);
      Chunker.ChunksProperties(content, Chunker.DefaultMaxLength);
      forall k | 0 <= k < |records|
        ensures records[k].chunkOrder == [NatToDecimal(k + 1)]
        ensures DecimalToNat(records[k].chunkOrder[0]) == k + 1
      {
        RecordsOfAt(paper, chunks, k);
        assert chunks[k].order == k + 1;
        DecimalRoundTrip(k + 1);
      }
    }
  }

  /** The records of a list of papers: each paper's text is downloaded, and a
      paper whose text is empty adds nothing. */
  function PapersRecords(papers: seq<Arxiv.Paper>, pdf: string -> Option<string>): seq<Record>
  {
    FlatMap(PaperStep(pdf), papers)
  }

  /** The loop body for one paper: download its text and assemble its records. */
  function PaperStep(pdf: string -> Option<string>): Arxiv.Paper -> seq<Record>
  {
    (paper: Arxiv.Paper) => PaperRecords(paper, DownloadAndParsePdf(paper.pdfUrl, pdf))
  }

  /** A paper whose download fails is skipped. */
  lemma FailedDownloadSkipsPaper(paper: Arxiv.Paper, pdf: string -> Option<string>)
    requires pdf(paper.pdfUrl).None?
    ensures PapersRecords([paper], pdf) == []
  {
    assert DownloadAndParsePdf(paper.pdfUrl, pdf) == [];
    FlatMapOne(PaperStep(pdf), paper);
  }

  /** A paper whose download succeeds is stored whole: its records spell the
      downloaded text without its NUL characters, every other character as
      often as it occurs, and there are records exactly when that text is
      not empty. */
  lemma DownloadedTextIsStored(paper: Arxiv.Paper, pdf: string -> Option<string>, t: string)
    requires pdf(paper.pdfUrl) == Some(t)
    ensures PapersRecords([paper], pdf) == [] <==> RemoveNul(t) == []
    ensures RecordContents(PapersRecords([paper], pdf)) == RemoveNul(t)
    ensures multiset(RecordContents(PapersRecords([paper], pdf))) == multiset(t)[NUL := 0]
  {
    FlatMapOne(PaperStep(pdf), paper);
    PaperRecordsSpellText(paper, DownloadAndParsePdf(paper.pdfUrl, pdf));
  }

  /** Papers are processed in order. */
  lemma PapersRecordsAppend(a: seq<Arxiv.Paper>, b: seq<Arxiv.Paper>, pdf: string -> Option<string>)
    ensures PapersRecords(a + b, pdf) == PapersRecords(a, pdf) + PapersRecords(b, pdf)
  {
    FlatMapAppend(PaperStep(pdf), a, b);
  }

  // ---------------------------------------------------------------------------
  // records of the topics
  // ---------------------------------------------------------------------------

  /** The records of one topic line: the line is cleaned, its papers fetched
      (`None` when that throws, which aborts the request), and their records
      assembled. */
  function TopicRecords(topic: string, env: Env): Option<seq<Record>>
  {
    match Arxiv.FetchArxivPapers(Topics.CleanTopic(topic), env.fetch, env.toIso)
    case Err(_) => None
    case Ok(papers) => Some(PapersRecords(papers, env.pdf))
  }

  /** The loop body for one topic line. */
  function TopicStep(env: Env): string -> Option<seq<Record>>
  {
    topic => TopicRecords(topic, env)
  }

  /** All records of all topics, topic by topic, or `None` when fetching the
      papers of some topic fails. */
  function CollectRecords(topics: seq<string>, env: Env): Option<seq<Record>>
  {
    ConcatMap(TopicStep(env), topics)
  }

  /** Collecting fails exactly when fetching the papers of some cleaned topic
      fails. */
  lemma CollectFailsIff(topics: seq<string>, env: Env)
    ensures CollectRecords(topics, env).None? <==>
      exists k :: 0 <= k < |topics| && Arxiv.FetchArxivPapers(Topics.CleanTopic(topics[k]), env.fetch, env.toIso).Err?
  {
    ConcatMapSomeIff(TopicStep(env), topics);
    if CollectRecords(topics, env).None? {
      var k :| 0 <= k < |topics| && TopicStep(env)(topics[k]).None?;
      assert TopicRecords(topics[k], env).None?;
    } else {
      forall k | 0 <= k < |topics|
        ensures Arxiv.FetchArxivPapers(Topics.CleanTopic(topics[k]), env.fetch, env.toIso).Ok?
      {
        assert TopicStep(env)(topics[k]).Some?;
      }
    }
  }

  /** Topics are processed in order: collecting two topic lists in turn fails
      exactly when one of them fails, and otherwise gives the records of the
      first followed by those of the second. */
  lemma CollectRecordsAppend(a: seq<string>, b: seq<string>, env: Env)
    ensures CollectRecords(a + b, env).Some? <==> CollectRecords(a, env).Some? && CollectRecords(b, env).Some?
    ensures CollectRecords(a + b, env).Some? ==>
      CollectRecords(a + b, env).value == CollectRecords(a, env).value + CollectRecords(b, env).value
  {
    ConcatMapAppend(TopicStep(env), a, b);
  }

  /** A single topic's outcome is the request's outcome: its own records, or
      the failure. */
  lemma CollectRecordsOne(topic: string, env: Env)
    ensures CollectRecords([topic], env) == TopicRecords(topic, env)
  {
    ConcatMapOne(TopicStep(env), topic);
  }

  // ---------------------------------------------------------------------------
  // the handler
  // ---------------------------------------------------------------------------

  /** The request's `query` field passes validation: it is present, a
      non-empty string, and not only whitespace. */
  function ValidQuery(query: Option<string>): (valid: bool)
    ensures valid <==> query.Some? && !AllWhitespace(query.value)
  {
    if query.Some? then TrimEmptyIff(query.value); Trim(query.value) != [] else false
  }

  /** The response the handler sends. */
  datatype Response =
    | BadRequest(error: string)
    | ServerError(error: string)
    | Uploaded(message: string, results: nat)

  const MissingQuery: string := "Query parameter is required."
  const ProcessingFailed: string := "An error occurred while processing your request."
  const UploadDone: string := "Results successfully uploaded to Supabase"

  /** The records the request produces, from a validated query: `None` when a
      model call or a paper fetch fails. */
  function Collect(query: string, env: Env): (records: Option<seq<Record>>)
  {
    match Llm.CallOpenAI(Llm.FirstMessages(query), Llm.FirstMaxTokens, Llm.Temperature, env.apiKey, env.chat)
    case Err(_) => None
    case Ok(first) =>
      match Llm.CallOpenAI(Llm.SecondMessages(first), Llm.SecondMaxTokens, Llm.Temperature, env.apiKey, env.chat)
      case Err(_) => None
      case Ok(second) => CollectRecords(Topics.ParseTopics(second), env)
  }

  /** The upload of the collected records. */
  function Store(records: seq<Record>, env: Env): Batching.Upload<Record>
  {
    Batching.UploadInBatches(records, UploadBatchSize, env.insert)
  }

  /** `POST /api/search` with body field `query` (`None` when missing). */
  function HandleSearch(query: Option<string>, env: Env): Response
  {
    if !ValidQuery(query) then BadRequest(MissingQuery)
    else
      match Collect(query.value, env)
      case None => ServerError(ProcessingFailed)
      case Some(records) =>
        if Store(records, env).failedAt.Some? then ServerError(ProcessingFailed)
        else Uploaded(UploadDone, |records|)
  }

  /** A request without a usable query is refused before any service is
      used: the answer does not depend on the environment. */
  lemma InvalidQueryIgnoresServices(query: Option<string>, env: Env, other: Env)
    requires !ValidQuery(query)
    ensures HandleSearch(query, env) == HandleSearch(query, other) == BadRequest(MissingQuery)
  {
  }

  /** Without a configured key, a valid request is answered with the generic
      server error whatever the other services would do. */
  lemma MissingKeyIsServerError(query: Option<string>, env: Env)
    requires ValidQuery(query) && env.apiKey == []
    ensures HandleSearch(query, env) == ServerError(ProcessingFailed)
  {
  }

  /** A success response reports exactly the records the database now holds. */
  lemma UploadedMeansStored(query: Option<string>, env: Env)
    requires HandleSearch(query, env).Uploaded?
    ensures var records := Collect(query.value, env).value;
      && Store(records, env).committed == records
      && HandleSearch(query, env).results == |Store(records, env).committed|
  {
    var records := Collect(query.value, env).value;
    Batching.UploadSucceeds(records, UploadBatchSize, env.insert, 0);
    assert records[0..] == records;
  }

  /** An error during upload is still answered with a server error, yet the
      batches before the rejected one stay in the database: the rejected
      batch is the `n`-th one sent and starts at record `(n - 1) * 500`. */
  lemma FailedUploadKeepsEarlierBatches(query: Option<string>, env: Env)
    requires ValidQuery(query) && Collect(query.value, env).Some?
    requires Store(Collect(query.value, env).value, env).failedAt.Some?
    ensures HandleSearch(query, env) == ServerError(ProcessingFailed)
    ensures var records := Collect(query.value, env).value;
      var u := Store(records, env);
      && u.failedAt.value < |records|
      && u.failedAt.value == (|u.attempted| - 1) * UploadBatchSize
      && u.committed == records[..u.failedAt.value]
  {
    Batching.UploadFailure(Collect(query.value, env).value, UploadBatchSize, env.insert);
  }
}

=== FILE: jstext.dfy ===
/** The string primitives the ingestion code relies on, with the semantics of
    the JavaScript (and, for `ReplaceAll`, Python) built-ins they stand for.
    Strings are sequences of Unicode scalar values; the source's strings are
    UTF-16 code units, which differ only outside the Basic Multilingual
    Plane. */
module JsText {
  import opened Wrappers

  const NUL: char := '\U{0}'

  /** The characters `String.prototype.trim` strips and the regular-expression
      class `\s` matches: ECMAScript WhiteSpace and LineTerminator. */
  predicate IsWhitespace(c: char) {
    || c == '\t' || c == '\n' || c == '\U{B}' || c == '\U{C}' || c == '\r'
    || c == ' ' || c == '\U{A0}' || c == '\U{1680}'
    || ('\U{2000}' <= c <= '\U{200A}')
    || c == '\U{2028}' || c == '\U{2029}' || c == '\U{202F}' || c == '\U{205F}'
    || c == '\U{3000}' || c == '\U{FEFF}'
  }

  predicate AllWhitespace(s: string) {
    forall k :: 0 <= k < |s| ==> IsWhitespace(s[k])
  }

  /** The regular-expression class `\d`: ASCII digits only. */
  predicate IsDigit(c: char) { '0' <= c <= '9' }

  predicate AllDigits(s: string) {
    forall k :: 0 <= k < |s| ==> IsDigit(s[k])
  }

  // ---------------------------------------------------------------------------
  // trim
  // ---------------------------------------------------------------------------

  /** Every character of `s[i..j]` is whitespace. */
  predicate WhitespaceBetween(s: string, i: int, j: int)
    requires 0 <= i && j <= |s|
  {
    forall k :: i <= k < j ==> IsWhitespace(s[k])
  }

  /** The end of the run of whitespace starting at `i`. */
  function WhitespaceEnd(s: string, i: nat): (n: nat)
    requires i <= |s|
    ensures i <= n <= |s| && WhitespaceBetween(s, i, n)
    ensures n == |s| || !IsWhitespace(s[n])
    decreases |s| - i
  {
    if i < |s| && IsWhitespace(s[i]) then WhitespaceEnd(s, i + 1) else i
  }

  /** The start of the run of whitespace ending at `j`, looking no further
      back than `lo`. */
  function WhitespaceStart(s: string, lo: nat, j: nat): (n: nat)
    requires lo <= j <= |s|
    ensures lo <= n <= j && WhitespaceBetween(s, n, j)
    ensures n == lo || !IsWhitespace(s[n - 1])
    decreases j
  {
    if lo < j && IsWhitespace(s[j - 1]) then WhitespaceStart(s, lo, j - 1) else j
  }

  /** A run of whitespace ends where the first non-whitespace character is. */
  lemma {:induction false} WhitespaceEndIs(s: string, i: nat, n: nat)
    requires i <= n <= |s| && WhitespaceBetween(s, i, n)
    requires n == |s| || !IsWhitespace(s[n])
    ensures WhitespaceEnd(s, i) == n
    decreases n - i
  {
    if i < n {
      WhitespaceEndIs(s, i + 1, n);
    }
  }

  /** A run of whitespace starts just after the last non-whitespace character. */
  lemma {:induction false} WhitespaceStartIs(s: string, lo: nat, j: nat, n: nat)
    requires lo <= n <= j <= |s| && WhitespaceBetween(s, n, j)
    requires n == lo || !IsWhitespace(s[n - 1])
    ensures WhitespaceStart(s, lo, j) == n
    decreases j - n
  {
    if n < j {
      WhitespaceStartIs(s, lo, j - 1, n);
    }
  }

  /** `String.prototype.trim`: the part of `s` between its leading and its
      trailing whitespace. */
  function Trim(s: string): (r: string)
    ensures |r| <= |s|
    ensures r == [] || (!IsWhitespace(r[0]) && !IsWhitespace(r[|r| - 1]))
  {
    var i := WhitespaceEnd(s, 0);
    s[i..WhitespaceStart(s, i, |s|)]
  }

  /** `s` is `r` with whitespace (possibly none) added on both sides. */
  ghost predicate IsPaddingOf(s: string, r: string) {
    exists i :: 0 <= i <= |s| - |r| && s[i..i + |r|] == r
      && WhitespaceBetween(s, 0, i) && WhitespaceBetween(s, i + |r|, |s|)
  }

  /** What `Trim` removes is whitespace on either side: the result is a slice
      of the input between whitespace margins. */
  lemma TrimIsPadding(s: string)
    ensures IsPaddingOf(s, Trim(s))
  {
    var i := WhitespaceEnd(s, 0);
    assert s[i..i + |Trim(s)|] == Trim(s);
  }

  /** A string trims to nothing exactly when it is all whitespace. */
  lemma TrimEmptyIff(s: string)
    ensures Trim(s) == [] <==> AllWhitespace(s)
  {
    var i := WhitespaceEnd(s, 0);
    if AllWhitespace(s) {
      WhitespaceEndIs(s, 0, |s|);
    }
    if Trim(s) == [] {
      assert WhitespaceStart(s, i, |s|) == i;
      assert WhitespaceBetween(s, 0, |s|);
    }
  }

  /** Trimming leaves a string alone exactly when its ends are not whitespace. */
  lemma TrimIdentityIff(s: string)
    ensures Trim(s) == s <==> (s == [] || (!IsWhitespace(s[0]) && !IsWhitespace(s[|s| - 1])))
  {
    if s != [] && !IsWhitespace(s[0]) && !IsWhitespace(s[|s| - 1]) {
      WhitespaceEndIs(s, 0, 0);
      WhitespaceStartIs(s, 0, |s|, |s|);
      assert s[0..|s|] == s;
    }
  }

  /** Two strings of one length with whitespace at the same positions trim
      to the same stretch of positions. */
  lemma TrimSameShape(s: string, t: string)
    requires |s| == |t|
    requires forall k :: 0 <= k < |s| ==> (IsWhitespace(s[k]) <==> IsWhitespace(t[k]))
    ensures var i := WhitespaceEnd(s, 0);
      var j := WhitespaceStart(s, i, |s|);
      && Trim(s) == s[i..j] && Trim(t) == t[i..j]
      && WhitespaceBetween(s, 0, i) && WhitespaceBetween(s, j, |s|)
  {
    var i := WhitespaceEnd(s, 0);
    var j := WhitespaceStart(s, i, |s|);
    WhitespaceEndIs(t, 0, i);
    WhitespaceStartIs(t, i, |t|, j);
  }

  /** A character that is not whitespace lies inside the trimmed part. */
  lemma NonWhitespaceInsideTrim(s: string, k: nat)
    requires k < |s| && !IsWhitespace(s[k])
    ensures WhitespaceEnd(s, 0) <= k < WhitespaceStart(s, WhitespaceEnd(s, 0), |s|)
  {
  }

  /** Trimming adds no character: one absent from `s` is absent from `Trim(s)`. */
  lemma TrimKeepsOut(s: string, c: char)
    requires c !in s
    ensures c !in Trim(s)
  {
    var i := WhitespaceEnd(s, 0);
    var r := Trim(s);
    forall k | 0 <= k < |r| ensures r[k] != c {
      assert r[k] == s[i + k];
    }
  }

  /** Trimming twice is trimming once. */
  lemma TrimIdempotent(s: string)
    ensures Trim(Trim(s)) == Trim(s)
  {
    TrimIdentityIff(Trim(s));
  }

  // ---------------------------------------------------------------------------
  // NUL removal: `s.replace(/\u0000/g, '')`
  // ---------------------------------------------------------------------------

  function RemoveNul(s: string): (r: string)
    ensures NUL !in r && |r| <= |s|
    ensures NUL !in s ==> r == s
  {
    if |s| == 0 then []
    else (if s[0] == NUL then [] else [s[0]]) + RemoveNul(s[1..])
  }

  /** NUL removal drops every NUL and keeps every other character, as often
      as it occurs. */
  lemma {:induction false} RemoveNulCounts(s: string)
    ensures multiset(RemoveNul(s)) == multiset(s)[NUL := 0]
  {
    if |s| > 0 {
      var t := s[1..];
      RemoveNulCounts(t);
      assert s == [s[0]] + t;
      assert multiset(s) == multiset{s[0]} + multiset(t);
      if s[0] == NUL {
        assert RemoveNul(s) == RemoveNul(t);
      } else {
        assert RemoveNul(s) == [s[0]] + RemoveNul(t);
        assert multiset(RemoveNul(s)) == multiset{s[0]} + multiset(RemoveNul(t));
      }
    }
  }

  /** NUL removal works character by character, so it splits over concatenation. */
  lemma {:induction false} RemoveNulAppend(a: string, b: string)
    ensures RemoveNul(a + b) == RemoveNul(a) + RemoveNul(b)
    decreases |a|
  {
    if |a| == 0 {
      assert a + b == b;
    } else {
      assert (a + b)[0] == a[0];
      assert (a + b)[1..] == a[1..] + b;
      RemoveNulAppend(a[1..], b);
      assert RemoveNul(a + b) == (if a[0] == NUL then [] else [a[0]]) + RemoveNul(a[1..] + b);
    }
  }

  // ---------------------------------------------------------------------------
  // lastIndexOf for a one-character pattern
  // ---------------------------------------------------------------------------

  function LastIndexAtOrBefore(s: string, c: char, k: int): (r: int)
    requires -1 <= k < |s|
    ensures -1 <= r <= k
    ensures r >= 0 ==> s[r] == c
    ensures forall j :: r < j <= k ==> s[j] != c
    decreases k + 1
  {
    if k < 0 then -1
    else if s[k] == c then k
    else LastIndexAtOrBefore(s, c, k - 1)
  }

  /** `s.lastIndexOf(c, position)`: the position is clamped to `[0, |s|]` and
      the result is the largest index at or before it holding `c`, or -1. */
  function LastIndexOf(s: string, c: char, position: int): (r: int)
    ensures -1 <= r < |s|
    ensures r >= 0 ==> s[r] == c && r <= (if position < 0 then 0 else position)
    ensures forall j :: r < j < |s| && j <= position ==> s[j] != c
    ensures r == -1 && position < 0 && |s| > 0 ==> s[0] != c
  {
    var start := if position < 0 then 0 else if position > |s| then |s| else position;
    LastIndexAtOrBefore(s, c, Min(start, |s| - 1))
  }

  // ---------------------------------------------------------------------------
  // split / join on a one-character separator
  // ---------------------------------------------------------------------------

  /** `s.split(sep)` for a one-character string separator: the pieces between
      separators, always at least one (the empty string splits into `[""]`). */
  function Split(s: string, sep: char): (parts: seq<string>)
    ensures |parts| >= 1
    ensures forall i :: 0 <= i < |parts| ==> sep !in parts[i]
  {
    if |s| == 0 then [""]
    else
      var rest := Split(s[1..], sep);
      if s[0] == sep then [""] + rest
      else [[s[0]] + rest[0]] + rest[1..]
  }

  /** `parts.join(sep)`. */
  function Join(parts: seq<string>, sep: char): string
    requires |parts| >= 1
  {
    if |parts| == 1 then parts[0] else parts[0] + [sep] + Join(parts[1..], sep)
  }

  /** A string without the separator is a single piece. */
  lemma {:induction false} SplitNoSeparator(s: string, sep: char)
    requires sep !in s
    ensures Split(s, sep) == [s]
    decreases |s|
  {
    if |s| > 0 {
      SplitNoSeparator(s[1..], sep);
      assert [s[0]] + s[1..] == s;
    }
  }

  /** Splitting at a separator splits the result in two. */
  lemma {:induction false} SplitAppend(a: string, b: string, sep: char)
    ensures Split(a + [sep] + b, sep) == Split(a, sep) + Split(b, sep)
    decreases |a|
  {
    var s := a + [sep] + b;
    if |a| == 0 {
      assert s[1..] == b;
    } else {
      assert s[0] == a[0] && s[1..] == a[1..] + [sep] + b;
      SplitAppend(a[1..], b, sep);
      var front := Split(a[1..], sep);
      var back := Split(b, sep);
      if a[0] != sep {
        assert (front + back)[0] == front[0];
        assert (front + back)[1..] == front[1..] + back;
      }
    }
  }

  /** Joining the pieces gives back the string. */
  lemma {:induction false} JoinSplit(s: string, sep: char)
    ensures Join(Split(s, sep), sep) == s
    decreases |s|
  {
    if |s| > 0 {
      JoinSplit(s[1..], sep);
      var rest := Split(s[1..], sep);
      if s[0] != sep && |rest| > 1 {
        assert rest == [rest[0]] + rest[1..];
        assert rest[1..][1..] == rest[2..];
      }
    }
  }

  /** Splitting joined pieces gives back the pieces, when none holds the separator. */
  lemma {:induction false} SplitJoin(parts: seq<string>, sep: char)
    requires |parts| >= 1
    requires forall i :: 0 <= i < |parts| ==> sep !in parts[i]
    ensures Split(Join(parts, sep), sep) == parts
    decreases |parts|
  {
    SplitNoSeparator(parts[0], sep);
    if |parts| > 1 {
      SplitJoin(parts[1..], sep);
      SplitAppend(parts[0], Join(parts[1..], sep), sep);
      assert [parts[0]] + parts[1..] == parts;
    }
  }

  // ---------------------------------------------------------------------------
  // substring search and replacement
  // ---------------------------------------------------------------------------

  predicate OccursAt(s: string, pat: string, i: int) {
    0 <= i && i + |pat| <= |s| && s[i..i + |pat|] == pat
  }

  /** The pattern occurs at most once in `s`. */
  ghost predicate AtMostOnce(s: string, pat: string) {
    forall i, j :: OccursAt(s, pat, i) && OccursAt(s, pat, j) ==> i == j
  }

  function IndexFrom(s: string, pat: string, i: nat): (r: int)
    requires |pat| >= 1
    ensures r == -1 || (i <= r && OccursAt(s, pat, r))
    ensures forall j :: i <= j && (r == -1 || j < r) ==> !OccursAt(s, pat, j)
    decreases |s| - i
  {
    if i + |pat| > |s| then -1
    else if OccursAt(s, pat, i) then i
    else IndexFrom(s, pat, i + 1)
  }

  /** `s.indexOf(pat)`: the first occurrence, or -1. */
  function IndexOf(s: string, pat: string): (r: int)
    requires |pat| >= 1
    ensures r == -1 || OccursAt(s, pat, r)
    ensures forall j :: 0 <= j && (r == -1 || j < r) ==> !OccursAt(s, pat, j)
  {
    IndexFrom(s, pat, 0)
  }

  /** A window of a slice is a window of the whole. */
  lemma SliceOfSlice(s: string, a: nat, b: nat, j: nat, n: nat)
    requires a <= b <= |s| && j <= n <= b - a
    ensures s[a..b][j..n] == s[a + j..a + n]
  {
    assert forall k :: 0 <= k < n - j ==> s[a..b][j..n][k] == s[a + j + k];
  }

  /** A window around a splice is the splice of the window. */
  lemma SliceOfSplice(s: string, rep: string, f: nat, a: nat, b: nat)
    requires a <= f && f + |rep| <= b <= |s|
    ensures (s[..f] + rep + s[f + |rep|..])[a..b] == s[a..f] + rep + s[f + |rep|..b]
  {
    var r := s[..f] + rep + s[f + |rep|..];
    var w := s[a..f] + rep + s[f + |rep|..b];
    forall k | 0 <= k < b - a ensures r[a..b][k] == w[k] {
      if a + k < f {
        assert r[a + k] == s[a + k];
      } else if a + k < f + |rep| {
        assert r[a + k] == rep[a + k - f];
      } else {
        assert r[a + k] == s[a + k];
      }
    }
  }

  /** A first occurrence inside a slice is the slice's first occurrence. */
  lemma FirstOccurrenceInSlice(s: string, pat: string, a: nat, b: nat, f: nat)
    requires a <= f && f + |pat| <= b <= |s|
    requires OccursAt(s, pat, f) && forall j :: 0 <= j < f ==> !OccursAt(s, pat, j)
    ensures OccursAt(s[a..b], pat, f - a)
    ensures forall j :: 0 <= j < f - a ==> !OccursAt(s[a..b], pat, j)
  {
    var t := s[a..b];
    SliceOfSlice(s, a, b, f - a, f - a + |pat|);
    forall j | 0 <= j < f - a ensures !OccursAt(t, pat, j) {
      if j + |pat| <= |t| {
        SliceOfSlice(s, a, b, j, j + |pat|);
        assert t[j..j + |pat|] == s[a + j..a + j + |pat|];
      }
      assert !OccursAt(s, pat, a + j);
    }
  }

  /** A pattern that never occurs in `s` never occurs in a slice of it. */
  lemma NoOccurrenceInSlice(s: string, pat: string, a: nat, b: nat)
    requires a <= b <= |s|
    requires forall j :: !OccursAt(s, pat, j)
    ensures forall j :: !OccursAt(s[a..b], pat, j)
  {
    var t := s[a..b];
    forall j | 0 <= j && j + |pat| <= |t| ensures !OccursAt(t, pat, j) {
      SliceOfSlice(s, a, b, j, j + |pat|);
      assert t[j..j + |pat|] == s[a + j..a + j + |pat|];
      assert !OccursAt(s, pat, a + j);
    }
  }

  /** Splicing a replacement over an occurrence, when neither holds
      whitespace, keeps every position's whitespace class. */
  lemma SpliceSameShape(s: string, pat: string, rep: string, f: nat)
    requires OccursAt(s, pat, f) && |rep| == |pat|
    requires forall k :: 0 <= k < |pat| ==> !IsWhitespace(pat[k]) && !IsWhitespace(rep[k])
    ensures |s[..f] + rep + s[f + |pat|..]| == |s|
    ensures forall k :: 0 <= k < |s| ==> (IsWhitespace(s[k]) <==> IsWhitespace((s[..f] + rep + s[f + |pat|..])[k]))
  {
    var r := s[..f] + rep + s[f + |pat|..];
    forall k | 0 <= k < |s| ensures IsWhitespace(s[k]) <==> IsWhitespace(r[k]) {
      if f <= k < f + |pat| {
        assert s[k] == s[f..f + |pat|][k - f] == pat[k - f];
        assert r[k] == rep[k - f];
      }
    }
  }

  /** JavaScript `s.replace(pat, rep)` with a string pattern: only the first
      occurrence is replaced. */
  function ReplaceFirst(s: string, pat: string, rep: string): (r: string)
    requires |pat| >= 1
    ensures |rep| == |pat| ==> |r| == |s|
    ensures (forall k :: !OccursAt(s, pat, k)) ==> r == s
  {
    var i := IndexOf(s, pat);
    if i < 0 then s else s[..i] + rep + s[i + |pat|..]
  }

  /** With its first occurrence at `i`, the pattern is replaced there and the
      rest of `s` is kept. */
  lemma ReplaceFirstAtFirst(s: string, pat: string, rep: string, i: nat)
    requires |pat| >= 1
    requires OccursAt(s, pat, i) && forall j :: 0 <= j < i ==> !OccursAt(s, pat, j)
    ensures ReplaceFirst(s, pat, rep) == s[..i] + rep + s[i + |pat|..]
  {
    assert IndexOf(s, pat) == i;
  }

  /** Two strings with the same whitespace positions that differ at a
      non-whitespace position trim to different strings. */
  lemma TrimSeesDifference(s: string, t: string, i: nat)
    requires |s| == |t| && i < |s|
    requires forall k :: 0 <= k < |s| ==> (IsWhitespace(s[k]) <==> IsWhitespace(t[k]))
    requires !IsWhitespace(s[i]) && s[i] != t[i]
    ensures Trim(s) != Trim(t)
  {
    TrimSameShape(s, t);
    var a := WhitespaceEnd(s, 0);
    var b := WhitespaceStart(s, a, |s|);
    assert a <= i < b;
    assert Trim(s)[i - a] == s[i];
    assert Trim(t)[i - a] == t[i];
  }

  /** Replacing whitespace-free text by whitespace-free text of the same
      length keeps every position's whitespace-ness. */
  lemma ReplaceFirstSameShape(s: string, pat: string, rep: string)
    requires |pat| >= 1 && |rep| == |pat|
    requires forall k :: 0 <= k < |pat| ==> !IsWhitespace(pat[k]) && !IsWhitespace(rep[k])
    ensures |ReplaceFirst(s, pat, rep)| == |s|
    ensures forall k :: 0 <= k < |s| ==> (IsWhitespace(s[k]) <==> IsWhitespace(ReplaceFirst(s, pat, rep)[k]))
  {
    var i := IndexOf(s, pat);
    var r := ReplaceFirst(s, pat, rep);
    if i >= 0 {
      forall k | 0 <= k < |s| ensures IsWhitespace(s[k]) <==> IsWhitespace(r[k]) {
        if k < i {
          assert r[k] == s[..i][k];
        } else if k < i + |pat| {
          assert r[k] == rep[k - i];
          assert s[k] == s[i..i + |pat|][k - i] == pat[k - i];
        } else {
          assert r[k] == s[i + |pat|..][k - i - |pat|];
        }
      }
    }
  }

  /** With a replacement as long as the pattern, every position of the result
      holds either the original character or one of the replacement's. */
  lemma ReplaceFirstAligned(s: string, pat: string, rep: string, k: nat)
    requires |pat| >= 1 && |rep| == |pat| && k < |s|
    ensures ReplaceFirst(s, pat, rep)[k] == s[k] || ReplaceFirst(s, pat, rep)[k] in rep
  {
    var i := IndexOf(s, pat);
    if i >= 0 {
      var r := ReplaceFirst(s, pat, rep);
      if k < i {
        assert r[k] == s[..i][k];
      } else if k < i + |pat| {
        assert r[k] == rep[k - i];
      } else {
        assert r[k] == s[i + |pat|..][k - i - |pat|];
      }
    }
  }

  /** An occurrence after the first one survives the first-only replacement. */
  lemma ReplaceFirstKeepsLater(s: string, pat: string, rep: string, j: nat)
    requires |pat| >= 1 && |rep| == |pat|
    requires OccursAt(s, pat, j) && IndexOf(s, pat) + |pat| <= j
    ensures OccursAt(ReplaceFirst(s, pat, rep), pat, j)
  {
    var i := IndexOf(s, pat);
    var r := ReplaceFirst(s, pat, rep);
    assert r == s[..i] + rep + s[i + |pat|..];
    forall k | j <= k < j + |pat| ensures r[k] == s[k] {
      assert r[k] == s[i + |pat|..][k - i - |pat|];
    }
    assert r[j..j + |pat|] == s[j..j + |pat|];
  }

  /** Python `s.replace(pat, rep)` applied to `s[i..]`: every occurrence, found
      left to right without overlap, is replaced. */
  function ReplaceAllFrom(s: string, pat: string, rep: string, i: nat): (r: string)
    requires |pat| >= 1 && i <= |s|
    ensures |rep| == |pat| ==> |r| == |s| - i
    decreases |s| - i
  {
    if i + |pat| > |s| then s[i..]
    else if OccursAt(s, pat, i) then rep + ReplaceAllFrom(s, pat, rep, i + |pat|)
    else [s[i]] + ReplaceAllFrom(s, pat, rep, i + 1)
  }

  /** Python `s.replace(pat, rep)`. */
  function ReplaceAll(s: string, pat: string, rep: string): (r: string)
    requires |pat| >= 1
    ensures |rep| == |pat| ==> |r| == |s|
    ensures (forall k :: !OccursAt(s, pat, k)) ==> r == s
  {
    if IndexOf(s, pat) < 0 then
      ReplaceAllNoOccurrence(s, pat, rep, 0);
      ReplaceAllFrom(s, pat, rep, 0)
    else
      ReplaceAllFrom(s, pat, rep, 0)
  }

  /** An occurrence in a suffix is an occurrence in the whole text. */
  lemma OccursInSuffix(s: string, pat: string, m: nat, k: nat)
    requires m <= |s|
    ensures OccursAt(s[m..], pat, k) <==> OccursAt(s, pat, m + k)
  {
    if k + |pat| <= |s| - m {
      assert s[m..][k..k + |pat|] == s[m + k..m + k + |pat|];
    }
  }

  /** Replacing from position `m + k` of `s` is replacing from position `k`
      of `s[m..]`. */
  predicate SuffixAgrees(s: string, pat: string, rep: string, m: nat, k: nat)
    requires |pat| >= 1 && m + k <= |s|
  {
    ReplaceAllFrom(s, pat, rep, m + k) == ReplaceAllFrom(s[m..], pat, rep, k)
  }

  /** Past the last place the pattern fits, both sides copy the rest. */
  lemma SuffixAgreesAtEnd(s: string, pat: string, rep: string, m: nat, k: nat)
    requires |pat| >= 1 && m + k <= |s| && m + k + |pat| > |s|
    ensures SuffixAgrees(s, pat, rep, m, k)
  {
    assert s[m..][k..] == s[m + k..];
  }

  /** At an occurrence, both sides write the replacement and jump past it. */
  lemma SuffixAgreesAtMatch(s: string, pat: string, rep: string, m: nat, k: nat)
    requires |pat| >= 1 && m + k + |pat| <= |s| && OccursAt(s, pat, m + k)
    requires SuffixAgrees(s, pat, rep, m, k + |pat|)
    ensures SuffixAgrees(s, pat, rep, m, k)
  {
    OccursInSuffix(s, pat, m, k);
  }

  /** Elsewhere, both sides copy one character and move on. */
  lemma SuffixAgreesAtCopy(s: string, pat: string, rep: string, m: nat, k: nat)
    requires |pat| >= 1 && m + k + |pat| <= |s| && !OccursAt(s, pat, m + k)
    requires SuffixAgrees(s, pat, rep, m, k + 1)
    ensures SuffixAgrees(s, pat, rep, m, k)
  {
    OccursInSuffix(s, pat, m, k);
    assert s[m..][k] == s[m + k];
  }

  /** Replacing from position `m + k` on is replacing from `k` in `s[m..]`. */
  lemma {:induction false} ReplaceAllFromSuffix(s: string, pat: string, rep: string, m: nat, k: nat)
    requires |pat| >= 1 && m + k <= |s|
    ensures SuffixAgrees(s, pat, rep, m, k)
    decreases |s| - k
  {
    if m + k + |pat| > |s| {
      SuffixAgreesAtEnd(s, pat, rep, m, k);
    } else if OccursAt(s, pat, m + k) {
      ReplaceAllFromSuffix(s, pat, rep, m, k + |pat|);
      SuffixAgreesAtMatch(s, pat, rep, m, k);
    } else {
      ReplaceAllFromSuffix(s, pat, rep, m, k + 1);
      SuffixAgreesAtCopy(s, pat, rep, m, k);
    }
  }

  /** Replace-all is replacing from the first position on. */
  lemma ReplaceAllIsFromStart(s: string, pat: string, rep: string)
    requires |pat| >= 1
    ensures ReplaceAll(s, pat, rep) == ReplaceAllFrom(s, pat, rep, 0)
  {
  }

  /** Replacing from position `m` on is the replace-all of `s[m..]`. */
  lemma ReplaceAllFromIsRest(s: string, pat: string, rep: string, m: nat)
    requires |pat| >= 1 && m <= |s|
    ensures ReplaceAllFrom(s, pat, rep, m) == ReplaceAll(s[m..], pat, rep)
  {
    ReplaceAllFromSuffix(s, pat, rep, m, 0);
    ReplaceAllIsFromStart(s[m..], pat, rep);
  }

  /** At an occurrence, replacing from there writes the replacement and
      then the replace-all of what follows the occurrence. */
  lemma ReplaceAllFromAtOccurrence(s: string, pat: string, rep: string, i: nat)
    requires |pat| >= 1 && OccursAt(s, pat, i)
    ensures ReplaceAllFrom(s, pat, rep, i) == rep + ReplaceAll(s[i + |pat|..], pat, rep)
  {
    var j := i + |pat|;
    assert ReplaceAllFrom(s, pat, rep, i) == rep + ReplaceAllFrom(s, pat, rep, j);
    ReplaceAllFromIsRest(s, pat, rep, j);
  }

  /** Python's replace-all rewrites the first occurrence and carries on after
      it: with the first occurrence at `i`, the result is the text before it,
      the replacement, and the replace-all of the rest. */
  lemma ReplaceAllAtFirst(s: string, pat: string, rep: string, i: nat)
    requires |pat| >= 1
    requires OccursAt(s, pat, i) && forall j :: 0 <= j < i ==> !OccursAt(s, pat, j)
    ensures ReplaceAll(s, pat, rep) == s[..i] + rep + ReplaceAll(s[i + |pat|..], pat, rep)
  {
    ReplaceAllIsFromStart(s, pat, rep);
    ReplaceAllSkips(s, pat, rep, 0, i);
    ReplaceAllFromAtOccurrence(s, pat, rep, i);
    assert s[0..i] == s[..i];
  }

  /** A stretch without occurrences is copied unchanged. */
  lemma {:induction false} ReplaceAllSkips(s: string, pat: string, rep: string, i: nat, j: nat)
    requires |pat| >= 1 && i <= j <= |s|
    requires forall k :: i <= k < j ==> !OccursAt(s, pat, k)
    ensures ReplaceAllFrom(s, pat, rep, i) == s[i..j] + ReplaceAllFrom(s, pat, rep, j)
    decreases j - i
  {
    if i < j {
      if i + |pat| > |s| {
        assert s[i..] == s[i..j] + s[j..];
      } else {
        ReplaceAllSkips(s, pat, rep, i + 1, j);
        assert s[i..j] == [s[i]] + s[i + 1..j];
      }
    }
  }

  /** Without any occurrence from `i` on, replacing changes nothing there. */
  lemma ReplaceAllNoOccurrence(s: string, pat: string, rep: string, i: nat)
    requires |pat| >= 1 && i <= |s|
    requires forall k :: i <= k < |s| ==> !OccursAt(s, pat, k)
    ensures ReplaceAllFrom(s, pat, rep, i) == s[i..]
  {
    ReplaceAllSkips(s, pat, rep, i, |s|);
    assert s[i..|s|] == s[i..];
  }

  /** When the pattern occurs at most once, both replacements agree. */
  lemma ReplaceFirstIsReplaceAllWhenAtMostOnce(s: string, pat: string, rep: string)
    requires |pat| >= 1
    requires AtMostOnce(s, pat)
    ensures ReplaceFirst(s, pat, rep) == ReplaceAll(s, pat, rep)
  {
    var i := IndexOf(s, pat);
    if i < 0 {
      ReplaceAllIsFromStart(s, pat, rep);
      ReplaceAllNoOccurrence(s, pat, rep, 0);
    } else {
      var rest := s[i + |pat|..];
      ReplaceFirstAtFirst(s, pat, rep, i);
      ReplaceAllAtFirst(s, pat, rep, i);
      forall k ensures !OccursAt(rest, pat, k) {
        if 0 <= k {
          OccursInSuffix(s, pat, i + |pat|, k);
        }
      }
    }
  }

  /** With a replacement as long as the pattern, every position of the result
      holds either the original character or one of the replacement's. */
  lemma {:induction false} ReplaceAllAligned(s: string, pat: string, rep: string, i: nat, k: nat)
    requires |pat| >= 1 && |rep| == |pat| && i <= k < |s|
    ensures ReplaceAllFrom(s, pat, rep, i)[k - i] == s[k] || ReplaceAllFrom(s, pat, rep, i)[k - i] in rep
    decreases |s| - i
  {
    var r := ReplaceAllFrom(s, pat, rep, i);
    if i + |pat| > |s| {
      assert r[k - i] == s[k];
    } else if OccursAt(s, pat, i) {
      var rest := ReplaceAllFrom(s, pat, rep, i + |pat|);
      assert r == rep + rest;
      if k >= i + |pat| {
        ReplaceAllAligned(s, pat, rep, i + |pat|, k);
        assert r[k - i] == rest[k - (i + |pat|)];
      } else {
        assert r[k - i] == rep[k - i];
      }
    } else {
      var rest := ReplaceAllFrom(s, pat, rep, i + 1);
      assert r == [s[i]] + rest;
      if k > i {
        ReplaceAllAligned(s, pat, rep, i + 1, k);
        assert r[k - i] == rest[k - (i + 1)];
      }
    }
  }

  /** Every occurrence of the pattern in the input lies in a replaced region:
      the result holds a replacement character where it began. */
  lemma {:induction false} ReplaceAllCoversOccurrence(s: string, pat: string, rep: string, i: nat, k: nat)
    requires |pat| >= 1 && |rep| == |pat| && i <= k
    requires OccursAt(s, pat, k)
    ensures ReplaceAllFrom(s, pat, rep, i)[k - i] in rep
    decreases |s| - i
  {
    var r := ReplaceAllFrom(s, pat, rep, i);
    if OccursAt(s, pat, i) {
      var rest := ReplaceAllFrom(s, pat, rep, i + |pat|);
      assert r == rep + rest;
      if k >= i + |pat| {
        ReplaceAllCoversOccurrence(s, pat, rep, i + |pat|, k);
        assert r[k - i] == rest[k - (i + |pat|)];
      } else {
        assert r[k - i] == rep[k - i];
      }
    } else {
      var rest := ReplaceAllFrom(s, pat, rep, i + 1);
      assert r == [s[i]] + rest;
      ReplaceAllCoversOccurrence(s, pat, rep, i + 1, k);
      assert r[k - i] == rest[k - (i + 1)];
    }
  }

  /** When the replacement shares no character with the pattern, no
      occurrence survives replacing all of them. */
  lemma ReplaceAllLeavesNoOccurrence(s: string, pat: string, rep: string)
    requires |pat| >= 1 && |rep| == |pat|
    requires forall t :: 0 <= t < |pat| ==> pat[t] !in rep
    ensures forall k :: !OccursAt(ReplaceAll(s, pat, rep), pat, k)
  {
    var r := ReplaceAll(s, pat, rep);
    ReplaceAllIsFromStart(s, pat, rep);
    assert pat[0] !in rep;
    forall k | OccursAt(r, pat, k) ensures false {
      forall t | 0 <= t < |pat| ensures s[k..k + |pat|][t] == pat[t] {
        assert r[k..k + |pat|][t] == pat[t];
        ReplaceAllAligned(s, pat, rep, 0, k + t);
      }
      assert s[k..k + |pat|] == pat;
      assert r[k] == r[k..k + |pat|][0] == pat[0];
      ReplaceAllCoversOccurrence(s, pat, rep, 0, k);
    }
  }
}

=== FILE: llm.dfy ===
/** The two chat-completion calls of the search handler: the messages it
    sends and how it reads the reply. The HTTP request itself is a parameter. */
module Llm {
  import opened Wrappers
  import opened JsText

  datatype Message = Message(role: string, content: string)

  /** The body and credentials of one chat-completion request. */
  datatype ChatRequest = ChatRequest(
    model: string,
    messages: seq<Message>,
    maxTokens: nat,
    temperature: real,
    authorization: string)

  const ChatModel: string := "gpt-3.5-turbo"
  const Temperature: real := 0.7
  const FirstMaxTokens: nat := 150
  const SecondMaxTokens: nat := 200

  const FirstSystemPrompt: string := "You write a better prompt that is towards research, keep it broad."
  const SecondSystemPrompt: string := "You are a data aggregator and topic extractor."
  const SecondPromptHead: string :=
    "Aggregate the following data and provide a list of potential topics, even if they relate only slightly. "
    + "You can go straight into it starting with 1. but only go to 3:\n\n\""

  /** Why a call produced no reply. */
  datatype CallError = KeyNotConfigured | RequestFailed

  /** `callOpenAI(messages, maxTokens, temperature)`. `apiKey` is the
      configured key, empty when unset; `chat` is the request, answering the
      text of the first choice, or `None` where the request or reading the
      reply throws. The reply is trimmed. */
  function CallOpenAI(messages: seq<Message>, maxTokens: nat, temperature: real,
                      apiKey: string, chat: ChatRequest -> Option<string>): (r: Result<string, CallError>)
    ensures r.Ok? ==> Trim(r.value) == r.value
  {
    if apiKey == [] then Err(KeyNotConfigured)
    else
      match chat(ChatRequest(ChatModel, messages, maxTokens, temperature, "Bearer " + apiKey))
      case None => Err(RequestFailed)
      case Some(reply) =>
        TrimIdempotent(reply);
        Ok(Trim(reply))
  }

  /** Without a key the request is never sent: the outcome does not depend
      on the chat service at all. */
  lemma MissingKeyNeverCalls(messages: seq<Message>, maxTokens: nat, temperature: real,
                             chat: ChatRequest -> Option<string>, other: ChatRequest -> Option<string>)
    ensures CallOpenAI(messages, maxTokens, temperature, [], chat)
         == CallOpenAI(messages, maxTokens, temperature, [], other)
  {
  }

  /** A reply is the first choice's text with only surrounding whitespace
      removed, and no further trimming changes it. */
  lemma ReplyIsUnpaddedChoice(messages: seq<Message>, maxTokens: nat, temperature: real,
                              apiKey: string, chat: ChatRequest -> Option<string>)
    requires CallOpenAI(messages, maxTokens, temperature, apiKey, chat).Ok?
    ensures IsPaddingOf(chat(ChatRequest(ChatModel, messages, maxTokens, temperature, "Bearer " + apiKey)).value,
                        CallOpenAI(messages, maxTokens, temperature, apiKey, chat).value)
    ensures var reply := CallOpenAI(messages, maxTokens, temperature, apiKey, chat).value;
      reply == [] || (!IsWhitespace(reply[0]) && !IsWhitespace(reply[|reply| - 1]))
  {
    TrimIsPadding(chat(ChatRequest(ChatModel, messages, maxTokens, temperature, "Bearer " + apiKey)).value);
  }

  /** The first conversation: a fixed instruction, then the user's query. */
  function FirstMessages(query: string): seq<Message>
  {
    [Message("system", FirstSystemPrompt), Message("user", query)]
  }

  /** The second prompt: a fixed request followed by the first reply, quoted. */
  function SecondPrompt(firstReply: string): (prompt: string)
    ensures |prompt| == |SecondPromptHead| + |firstReply| + 1
    ensures prompt[..|SecondPromptHead|] == SecondPromptHead
    ensures prompt[|prompt| - 1] == '"'
  {
    SecondPromptHead + firstReply + "\""
  }

  /** The first reply read back from the second prompt. */
  function QuotedReply(prompt: string): Option<string>
  {
    if |prompt| > |SecondPromptHead| && prompt[..|SecondPromptHead|] == SecondPromptHead && prompt[|prompt| - 1] == '"'
    then Some(prompt[|SecondPromptHead|..|prompt| - 1])
    else None
  }

  /** The first reply reaches the second call verbatim, whatever it contains. */
  lemma SecondPromptQuotesReply(firstReply: string)
    ensures QuotedReply(SecondPrompt(firstReply)) == Some(firstReply)
  {
    var p := SecondPrompt(firstReply);
    assert p[|SecondPromptHead|..|p| - 1] == firstReply;
  }

  /** The second conversation: a fixed instruction, then the second prompt. */
  function SecondMessages(firstReply: string): (ms: seq<Message>)
    ensures |ms| == 2 && ms[0].role == "system" && ms[1].role == "user"
    ensures QuotedReply(ms[1].content) == Some(firstReply)
  {
    SecondPromptQuotesReply(firstReply);
    [Message("system", SecondSystemPrompt), Message("user", SecondPrompt(firstReply))]
  }
}

=== FILE: topics.dfy ===
/** Turning the language model's second reply into search topics: the reply is
    split into lines, each line trimmed, blank lines and sub-bullets (lines
    starting with `-`) dropped, and then, one topic at a time, a leading
    enumeration `<digits>.` with the whitespace after it removed. No cap on
    the number of topics is applied. */
module Topics {
  import opened JsText

  /** A trimmed line survives when it is non-empty and not a sub-bullet. */
  predicate IsTopicLine(t: string) {
    |t| > 0 && t[0] != '-'
  }

  /** What every parsed topic satisfies. */
  predicate IsParsedTopic(t: string) {
    IsTopicLine(t) && Trim(t) == t && '\n' !in t
  }

  /** `lines.map(l => l.trim())`. */
  function TrimAll(lines: seq<string>): (trimmed: seq<string>)
    ensures |trimmed| == |lines|
    ensures forall i :: 0 <= i < |lines| ==> trimmed[i] == Trim(lines[i])
  {
    if |lines| == 0 then [] else [Trim(lines[0])] + TrimAll(lines[1..])
  }

  /** `.filter(t => t && !t.startsWith('-'))`: the topic lines, in order. */
  function KeepTopicLines(lines: seq<string>): (kept: seq<string>)
    ensures |kept| <= |lines|
    ensures forall i :: 0 <= i < |kept| ==> IsTopicLine(kept[i]) && kept[i] in lines
    ensures forall t :: t in lines && IsTopicLine(t) ==> t in kept
  {
    if |lines| == 0 then []
    else (if IsTopicLine(lines[0]) then [lines[0]] else []) + KeepTopicLines(lines[1..])
  }

  /** The topic list parsed from a reply. */
  function ParseTopics(reply: string): seq<string>
  {
    KeepTopicLines(TrimAll(Split(reply, '\n')))
  }

  /** Every parsed topic is a non-empty, trimmed, single line that is not a
      sub-bullet. */
  lemma ParsedTopicsWellFormed(reply: string)
    ensures forall i :: 0 <= i < |ParseTopics(reply)| ==> IsParsedTopic(ParseTopics(reply)[i])
  {
    var lines := Split(reply, '\n');
    var trimmed := TrimAll(lines);
    forall t | t in trimmed ensures Trim(t) == t && '\n' !in t {
      var k :| 0 <= k < |trimmed| && trimmed[k] == t;
      TrimIdempotent(lines[k]);
      TrimKeepsOut(lines[k], '\n');
    }
  }

  lemma {:induction false} TrimAllAppend(a: seq<string>, b: seq<string>)
    ensures TrimAll(a + b) == TrimAll(a) + TrimAll(b)
    decreases |a|
  {
    if |a| == 0 {
      assert a + b == b;
    } else {
      assert (a + b)[0] == a[0];
      assert (a + b)[1..] == a[1..] + b;
      TrimAllAppend(a[1..], b);
    }
  }

  lemma {:induction false} KeepTopicLinesAppend(a: seq<string>, b: seq<string>)
    ensures KeepTopicLines(a + b) == KeepTopicLines(a) + KeepTopicLines(b)
    decreases |a|
  {
    if |a| == 0 {
      assert a + b == b;
    } else {
      assert (a + b)[0] == a[0];
      assert (a + b)[1..] == a[1..] + b;
      KeepTopicLinesAppend(a[1..], b);
    }
  }

  /** Line order is kept: the topics of two blocks of lines joined by a line
      break are the first block's topics followed by the second's. */
  lemma ParseTopicsAppend(a: string, b: string)
    ensures ParseTopics(a + "\n" + b) == ParseTopics(a) + ParseTopics(b)
  {
    SplitAppend(a, b, '\n');
    TrimAllAppend(Split(a, '\n'), Split(b, '\n'));
    KeepTopicLinesAppend(TrimAll(Split(a, '\n')), TrimAll(Split(b, '\n')));
  }

  /** A single line yields its trimmed text when that is a topic line, and
      nothing otherwise. */
  lemma ParseTopicsLine(line: string)
    requires '\n' !in line
    ensures ParseTopics(line) == (if IsTopicLine(Trim(line)) then [Trim(line)] else [])
  {
    SplitNoSeparator(line, '\n');
    assert TrimAll([line]) == [Trim(line)];
  }

  // ---------------------------------------------------------------------------
  // topic.replace(/^\d+\.\s*/, '').trim()
  // ---------------------------------------------------------------------------

  /** Every character of `t[i..j]` is an ASCII digit. */
  predicate DigitsBetween(t: string, i: int, j: int)
    requires 0 <= i && j <= |t|
  {
    forall k :: i <= k < j ==> IsDigit(t[k])
  }

  /** The end of the run of digits starting at `i`. */
  function DigitEnd(t: string, i: nat): (n: nat)
    requires i <= |t|
    ensures i <= n <= |t| && DigitsBetween(t, i, n)
    ensures n == |t| || !IsDigit(t[n])
    decreases |t| - i
  {
    if i < |t| && IsDigit(t[i]) then DigitEnd(t, i + 1) else i
  }

  /** A run of digits ends where the first other character is. */
  lemma {:induction false} DigitEndIs(t: string, i: nat, n: nat)
    requires i <= n <= |t| && DigitsBetween(t, i, n)
    requires n == |t| || !IsDigit(t[n])
    ensures DigitEnd(t, i) == n
    decreases n - i
  {
    if i < n {
      DigitEndIs(t, i + 1, n);
    }
  }

  /** `t` starts with one or more digits followed by a dot. */
  ghost predicate HasNumbering(t: string) {
    exists d :: 1 <= d < |t| && DigitsBetween(t, 0, d) && t[d] == '.'
  }

  /** `t[..n]` is what `^\d+\.\s*` matches: `d` digits, a dot, and all the
      whitespace that follows it. */
  predicate NumberingMatch(t: string, d: nat, n: nat) {
    && 1 <= d < n <= |t|
    && DigitsBetween(t, 0, d) && t[d] == '.'
    && WhitespaceBetween(t, d + 1, n)
    && (n == |t| || !IsWhitespace(t[n]))
  }

  /** The length of the enumeration prefix the regular expression removes,
      zero when it does not match. */
  function NumberingLength(t: string): (n: nat)
    ensures n <= |t|
    ensures n > 0 ==> NumberingMatch(t, DigitEnd(t, 0), n)
  {
    var d := DigitEnd(t, 0);
    if d >= 1 && d < |t| && t[d] == '.' then WhitespaceEnd(t, d + 1) else 0
  }

  /** The regular expression fails to match exactly when the line does not
      start with digits and a dot. */
  lemma NumberingLengthZeroIff(t: string)
    ensures NumberingLength(t) == 0 <==> !HasNumbering(t)
  {
    var d := DigitEnd(t, 0);
    if NumberingLength(t) == 0 {
      forall e | 1 <= e < |t| && DigitsBetween(t, 0, e) ensures t[e] != '.' {
      }
    } else {
      assert 1 <= d < |t| && DigitsBetween(t, 0, d) && t[d] == '.';
    }
  }

  /** The topic the handler searches for, from one parsed topic line. */
  function CleanTopic(t: string): (r: string)
    ensures Trim(r) == r
    ensures |r| <= |t|
  {
    TrimIdempotent(t[NumberingLength(t)..]);
    Trim(t[NumberingLength(t)..])
  }

  /** A line without an enumeration is only trimmed. */
  lemma CleanUnnumbered(t: string)
    requires !HasNumbering(t)
    ensures CleanTopic(t) == Trim(t)
  {
    NumberingLengthZeroIff(t);
    assert t[0..] == t;
  }

  /** The regular expression matches the digits, the dot and the whole gap. */
  lemma NumberingLengthOf(digits: string, gap: string, text: string)
    requires |digits| >= 1 && AllDigits(digits)
    requires AllWhitespace(gap)
    requires text == [] || !IsWhitespace(text[0])
    ensures NumberingLength(digits + "." + gap + text) == |digits| + 1 + |gap|
  {
    var t := digits + "." + gap + text;
    var d := |digits|;
    var n := d + 1 + |gap|;
    assert forall k :: 0 <= k < d ==> t[k] == digits[k];
    assert t[d] == '.';
    DigitEndIs(t, 0, d);
    assert forall k :: d + 1 <= k < n ==> t[k] == gap[k - d - 1];
    assert n < |t| ==> t[n] == text[0];
    WhitespaceEndIs(t, d + 1, n);
  }

  /** A numbered line loses its number, the dot and the space after it. */
  lemma CleanNumberedTopic(digits: string, gap: string, text: string)
    requires |digits| >= 1 && AllDigits(digits)
    requires AllWhitespace(gap)
    requires text == [] || !IsWhitespace(text[0])
    ensures CleanTopic(digits + "." + gap + text) == Trim(text)
  {
    var t := digits + "." + gap + text;
    NumberingLengthOf(digits, gap, text);
    assert t[|digits| + 1 + |gap|..] == text;
  }

  /** Only one enumeration is removed: a line numbered twice keeps its second
      number, so a cleaned topic may still start with an enumeration. */
  lemma CleanRemovesOnlyOneNumber(digits: string, gap: string, text: string)
    requires |digits| >= 1 && AllDigits(digits)
    requires AllWhitespace(gap)
    requires HasNumbering(text) && Trim(text) == text
    ensures CleanTopic(digits + "." + gap + text) == text
    ensures HasNumbering(CleanTopic(digits + "." + gap + text))
  {
    CleanNumberedTopic(digits, gap, text);
  }

  /** A line that is nothing but a number cleans to the empty topic. */
  lemma CleanBareNumberIsEmpty(digits: string, gap: string)
    requires |digits| >= 1 && AllDigits(digits)
    requires AllWhitespace(gap)
    ensures CleanTopic(digits + "." + gap) == []
  {
    CleanNumberedTopic(digits, gap, []);
    assert digits + "." + gap + [] == digits + "." + gap;
  }

  /** Lines that are already topics come back unchanged, however many there
      are: parsing undoes joining them with line breaks, with no cap on the count. */
  lemma ParseJoinedTopics(topics: seq<string>)
    requires |topics| >= 1
    requires forall i :: 0 <= i < |topics| ==> IsParsedTopic(topics[i])
    ensures ParseTopics(Join(topics, '\n')) == topics
  {
    SplitJoin(topics, '\n');
    TrimAllTrimmed(topics);
    KeepAllTopicLines(topics);
  }

  /** Trimming lines that are already trimmed changes nothing. */
  lemma TrimAllTrimmed(lines: seq<string>)
    requires forall i :: 0 <= i < |lines| ==> Trim(lines[i]) == lines[i]
    ensures TrimAll(lines) == lines
  {
  }

  /** The filter keeps a list made of topic lines whole. */
  lemma {:induction false} KeepAllTopicLines(lines: seq<string>)
    requires forall i :: 0 <= i < |lines| ==> IsTopicLine(lines[i])
    ensures KeepTopicLines(lines) == lines
    decreases |lines|
  {
    if |lines| > 0 {
      assert forall i :: 0 <= i < |lines[1..]| ==> lines[1..][i] == lines[i + 1];
      KeepAllTopicLines(lines[1..]);
      assert [lines[0]] + lines[1..] == lines;
    }
  }
}

=== FILE: wrappers.dfy ===
/** Failure-carrying datatypes used throughout the model: an absent value
    (`Option`) and a computation that either succeeds or fails (`Result`). */
module Wrappers {

  datatype Option<+T> = None | Some(value: T)

  datatype Result<+R, +E> = Ok(value: R) | Err(error: E)

  /** A value the source accepts either as a single item, as a list of items,
      or not at all (an XML element that occurs once, several times, or never). */
  datatype Multi<+T> = Absent | One(item: T) | Many(items: seq<T>)

  function Min(a: int, b: int): int { if a <= b then a else b }

  /** The lists `f` gives for the items of `xs`, joined in order (a loop
      that pushes the results of every item onto one list). */
  function FlatMap<A, T>(f: A -> seq<T>, xs: seq<A>): seq<T>
  {
    if |xs| == 0 then [] else f(xs[0]) + FlatMap(f, xs[1..])
  }

  /** The lists of `xss` joined in order. */
  function Flatten<T>(xss: seq<seq<T>>): seq<T>
  {
    FlatMap((xs: seq<T>) => xs, xss)
  }

  /** Running the loop over two lists in turn gives both results, in order. */
  lemma {:induction false} FlatMapAppend<A, T>(f: A -> seq<T>, a: seq<A>, b: seq<A>)
    ensures FlatMap(f, a + b) == FlatMap(f, a) + FlatMap(f, b)
    decreases |a|
  {
    if |a| == 0 {
      assert a + b == b;
    } else {
      assert (a + b)[0] == a[0];
      assert (a + b)[1..] == a[1..] + b;
      FlatMapAppend(f, a[1..], b);
    }
  }

  /** A one-item loop gives that item's list. */
  lemma FlatMapOne<A, T>(f: A -> seq<T>, x: A)
    ensures FlatMap(f, [x]) == f(x)
  {
    assert [x][1..] == [];
    assert f(x) + [] == f(x);
  }

  /** Like `FlatMap` for a step that can fail: `None` as soon as one item
      fails (a loop that throws at the first failure). */
  function ConcatMap<A, T>(f: A -> Option<seq<T>>, xs: seq<A>): Option<seq<T>>
  {
    if |xs| == 0 then Some([])
    else
      match (f(xs[0]), ConcatMap(f, xs[1..]))
      case (Some(p), Some(ps)) => Some(p + ps)
      case _ => None
  }

  /** The loop succeeds exactly when every item succeeds. */
  lemma {:induction false} ConcatMapSomeIff<A, T>(f: A -> Option<seq<T>>, xs: seq<A>)
    ensures ConcatMap(f, xs).Some? <==> forall k :: 0 <= k < |xs| ==> f(xs[k]).Some?
    decreases |xs|
  {
    if |xs| > 0 {
      ConcatMapSomeIff(f, xs[1..]);
      assert forall k :: 1 <= k < |xs| ==> xs[1..][k - 1] == xs[k];
    }
  }

  /** Running the loop over two lists in turn succeeds exactly when it
      succeeds on both, and then gives both results, in order. */
  lemma {:induction false} ConcatMapAppend<A, T>(f: A -> Option<seq<T>>, a: seq<A>, b: seq<A>)
    ensures ConcatMap(f, a + b).Some? <==> ConcatMap(f, a).Some? && ConcatMap(f, b).Some?
    ensures ConcatMap(f, a + b).Some? ==>
      ConcatMap(f, a + b).value == ConcatMap(f, a).value + ConcatMap(f, b).value
    decreases |a|
  {
    if |a| == 0 {
      assert a + b == b;
      if ConcatMap(f, b).Some? {
        assert ConcatMap(f, a).value + ConcatMap(f, b).value == ConcatMap(f, b).value;
      }
    } else {
      assert (a + b)[0] == a[0];
      assert (a + b)[1..] == a[1..] + b;
      ConcatMapAppend(f, a[1..], b);
      if ConcatMap(f, a + b).Some? {
        var head := f(a[0]).value;
        assert head + (ConcatMap(f, a[1..]).value + ConcatMap(f, b).value)
            == (head + ConcatMap(f, a[1..]).value) + ConcatMap(f, b).value;
      }
    }
  }

  /** A one-item loop gives that item's result. */
  lemma ConcatMapOne<A, T>(f: A -> Option<seq<T>>, x: A)
    ensures ConcatMap(f, [x]) == f(x)
  {
    assert [x][1..] == [];
    if f(x).Some? {
      assert f(x).value + [] == f(x).value;
    }
  }
}
